=== FILE: README.md ===
# Foodgram recipe store, modelled in Dafny

Foodgram is a recipe-sharing web service. Users publish recipes made of tagged
ingredients with amounts. They mark recipes as favorites, put them in a
shopping cart, subscribe to authors, and download a shopping list that sums the
ingredients of every recipe in their cart.

This project models the relational core of that service as immutable values.
The whole database is one `Store` value. Every request is a pure function from
a store (and the requester, and the parsed request data) to the next store and
a reply. The model covers:

- the data model and its invariants: field bounds, unique constraints,
  foreign keys, cascade deletion, and the `__str__` labels (`models.dfy`);
- the shared shape of the favorite, shopping-cart and subscription tables,
  written through `get_or_create` (`toggles.dfy`);
- recipe create and update with their tag and ingredient-row replacement, the
  inline image string split, the per-requester flags, and the recipes embedded
  in a subscription entry (`serializers.dfy`);
- the favorite, cart and subscribe actions, the subscriptions list, and the
  shopping-list download (`views.dfy`, with the grouped sum in
  `aggregation.dfy`);
- the recipe list filters and the ingredient name filter (`filters.dfy`);
- string helpers: prefix tests, `str.split`, case folding as a parameter,
  decimal formatting (`text.dfy`), and generic sequence filtering (`basics.dfy`).

Replies are abstract: `Created`, `Updated`, `Removed`, `Invalid` (a validation
error), `NotFound`, `NoResponse` (the view function returns nothing, which the
framework reports as a server error) and `Crashed` (an uncaught exception).

Where the code's behaviour is not what an API description would suggest, the
model follows the code:

- A POST on an existing favorite or cart entry matches no branch of the view.
  The view then returns nothing instead of reporting a conflict (`NoResponse`).
- A DELETE on an absent favorite, cart entry or subscription first creates the
  row and then deletes it. The database is left unchanged and the reply is a
  success, not "not found".
- Nothing stops users from subscribing to themselves.
- A new subscription is written before its entry is rendered. A
  `recipes_limit` in the same POST that is not a number, or is negative, makes
  the rendering crash, and the subscription stays.
- The ingredient name query is stripped of surrounding whitespace before it is
  matched. A query of spaces only keeps every ingredient.
- Empty tag and ingredient lists are accepted on create and update.
- An unknown ingredient id is not validated. The lookup raises in the middle
  of the writes, and the writes already done stay.
- Duplicate ingredient ids in one request become duplicate rows.
- `name` and `text` are stripped of surrounding whitespace before they are
  checked and stored, as the framework's generated string fields do. A name of
  spaces only is refused as blank, and a name or text holding a null character
  is refused, as those fields' null-character validator does.
- `cooking_time` is never checked against 1..32000, and an ingredient `amount`
  is never checked against 32000 (see Findings).

## Model

| member | source | states |
|---|---|---|
| Models.Label | backend/recipes/models.py:36-37 | the label is a prefix of the name, of length min(25, length of name), and the whole name when it is short |
| Models.Tag.Str | backend/recipes/models.py:36-37 | a tag's string form is the first min(25, n) characters of its name |
| Models.Ingredient.Str | backend/recipes/models.py:55-56 | an ingredient's string form is the first min(25, n) characters of its name |
| Models.Recipe.Str | backend/recipes/models.py:114-115 | a recipe's string form is the first min(25, n) characters of its name |
| Models.LabelIdempotent | backend/recipes/models.py:7 | truncating an already truncated label changes nothing |
| Models.IngredientRecipeStr | backend/recipes/models.py:173-174 | the row's string form is the ingredient label, one space, then the recipe label, so at most 51 characters |
| Models.FavoriteStr | backend/recipes/models.py:140-141 | the favorite's string form is the user's label, one space, then the recipe label |
| Models.CartStr | backend/recipes/models.py:201-202 | the cart entry's string form is the recipe label, the text ` в списке покупок у `, then the user's label |
| Models.RowsOfWithout | backend/recipes/models.py:150-155 | removing one recipe's ingredient rows leaves it with none and every other recipe's rows exactly as they were |
| Models.DeleteRecipe | backend/recipes/models.py:124-187 | deleting a recipe removes exactly it, its ingredient rows, and the favorites and cart entries pointing at it; tags, ingredients, users and subscriptions are unchanged |
| Models.DeleteRecipeKeepsValid | backend/recipes/models.py:118-202 | after a cascade delete every invariant still holds, so no row points at the deleted recipe |
| Models.RecipeFilterKeepsUnique | backend/recipes/models.py:107-112 | dropping recipes never creates two recipes with the same id or the same (name, text) pair |
| Models.InsertTag | backend/recipes/models.py:13-29 | a tag is admitted exactly when its id, name, colour and slug are all unused, and then the tag table stays unique |
| Models.InsertTagKeepsValid | backend/recipes/models.py:13-29 | admitting a tag keeps every invariant of the database |
| Toggles.GetOrCreate | backend/api/views.py:130-132 | the pair is present afterwards; a row is created exactly when it was absent, and only then does the table change |
| Toggles.Remove | backend/api/views.py:139-140 | deleting removes the pair and keeps every other pair, and uniqueness survives |
| Toggles.FilterKeepsUnique | backend/recipes/models.py:134-137 | dropping rows from a table with unique (user, target) pairs keeps it unique |
| Toggles.Toggle | backend/api/views.py:128-141 | DELETE leaves the pair absent whether or not it existed; POST of an absent pair adds exactly it; POST of a present pair changes nothing and replies by the view's policy; uniqueness is preserved |
| Toggles.DeleteAbsentIsNoOp | backend/api/views.py:139-141 | a DELETE of an absent pair leaves the table exactly as it was, order included |
| Toggles.DeletePresentShrinks | backend/api/views.py:139-141 | a DELETE of a present pair removes exactly one row |
| Toggles.RemoveOneCount | backend/api/views.py:139-140 | filtering one pair out of a unique table shortens it by one |
| Toggles.PostThenDeleteRestores | backend/api/views.py:128-141 | POST then DELETE of a new pair restores the table exactly |
| Toggles.PostIsIdempotent | backend/api/views.py:130-133 | a second POST of the same pair leaves the table as the first POST left it |
| Serializers.NewRows | backend/api/serializers.py:166-174 | one row per submitted entry, in submission order, carrying its ingredient id and amount |
| Serializers.WriteNew | backend/api/serializers.py:180-193 | the recipe is inserted under the next key by the requester with the submitted fields; with every ingredient id known it gets one row per entry in order and the submitted tag set, otherwise the bare recipe stays without tags or rows and the request crashes; no other recipe's rows or other table change |
| Serializers.CreateAsWritten | backend/api/serializers.py:179-194 | with the serializer's own checks on the stripped name and text, a refused request (blank name or text, a null character in either, amount below 1, unknown tag, taken name and text) writes nothing, and an accepted one has the effect stated for `WriteNew` |
| Serializers.Create | backend/api/serializers.py:179-194 | the corrected create: it refuses a cooking time outside 1..32000 and an amount outside 1..32000 without writing, and otherwise behaves as the as-written create |
| Serializers.AppendedRows | backend/api/serializers.py:184-192 | appending a new recipe's rows gives it exactly those rows and leaves every other recipe's rows unchanged |
| Serializers.UpdateWrites | backend/api/serializers.py:162-176 | with every ingredient id known the recipe keeps its key and author and gets the submitted fields, the submitted tag set and one row per entry in order; otherwise it is left without tags or rows and the request crashes; no other recipe, row or table changes |
| Serializers.UpdateAsWritten | backend/api/serializers.py:161-177 | a missing recipe gives not-found; with the serializer's own checks on the stripped name and text, a refused request (including a null character in either) writes nothing, and an accepted one has the effect stated for `UpdateWrites` |
| Serializers.CreateKeepsValid | backend/api/serializers.py:179-194 | with the declared bounds enforced, create keeps every database invariant |
| Serializers.Update | backend/api/serializers.py:161-177 | the corrected update: it refuses a cooking time outside 1..32000 and an amount outside 1..32000 without writing, and otherwise behaves as the as-written update |
| Serializers.ReplacedRows | backend/api/serializers.py:165-174 | deleting a recipe's rows and appending the new ones gives it exactly the new rows, and every other recipe keeps its own |
| Serializers.UpdateKeepsValid | backend/api/serializers.py:161-177 | with the declared bounds enforced, update keeps every database invariant |
| Serializers.CookingTimeZeroIsStored | backend/api/serializers.py:146 | as written, a recipe with cooking time 0 is created and breaks the declared bound; the corrected create refuses it |
| Serializers.CookingTimeAboveMaxIsStored | backend/api/serializers.py:146 | as written, a recipe with cooking time 32001 is created and breaks the declared bound; the corrected create refuses it |
| Serializers.AmountAboveMaxIsStored | backend/api/serializers.py:85 | as written, an ingredient amount of 32001 is stored and breaks the declared bound; the corrected create refuses it |
| Serializers.CookingTimeBoundaries | backend/recipes/models.py:86-96 | cooking times 1 and 32000 pass the corrected checks, 0 and 32001 do not |
| Serializers.ImageToInternal | backend/api/serializers.py:46-51 | input not starting with `data:image` passes through unchanged; with that prefix it decodes exactly when `;base64,` occurs once, into the text before and after the marker, with the extension after the last `/` of the format and the file name `temp.` plus the extension |
| Serializers.ImageSplitsAtMarker | backend/api/serializers.py:47-49 | a `data:image` string made of a format, one `;base64,` and a payload decodes into exactly that format and that payload |
| Serializers.IsFavorited | backend/api/serializers.py:127-134 | false for an anonymous requester, otherwise true exactly when the requester's favorite row exists |
| Serializers.IsInCart | backend/api/serializers.py:118-125 | false for an anonymous requester, otherwise true exactly when the requester's cart row exists |
| Serializers.IsSubscribed | backend/api/serializers.py:33-42 | false without a request or for an anonymous requester, otherwise true exactly when the subscription row exists |
| Serializers.EmbeddedRecipes | backend/api/serializers.py:234-244 | without a limit (or with an empty one) all of the author's recipes; with a limit n of at least 0, the first min(n, count) of them; a negative or non-numeric limit fails; every embedded recipe is the author's |
| Serializers.RecipesCount | backend/api/serializers.py:254-255 | the count is the number of the author's recipes, whatever the limit |
| Serializers.EmbeddedWithinCount | backend/api/serializers.py:234-255 | the embedded list never exceeds the count, and equals it exactly when no limit cuts it |
| Basics.Take | backend/api/serializers.py:241 | the slice `[:n]` is a prefix of length min(n, length) |
| Text.Split | backend/api/serializers.py:48-49 | `str.split` gives at least one part; joining the parts with the separator gives the input back, and no part contains the separator |
| Text.SplitWithoutSeparator | backend/api/serializers.py:48 | a string without the separator splits into itself alone |
| Text.SplitLastIsTail | backend/api/serializers.py:49 | `split('/')[-1]` is a suffix of the string that is either the whole string or preceded by a `/`; with the split's no-separator-in-a-part property, the text after the last `/` |
| Text.SplitAtOnly | backend/api/serializers.py:48 | splitting at the only occurrence of a separator that cannot overlap itself gives the two sides |
| Text.SplitInTwo | backend/api/serializers.py:48 | `split` gives the two parts the tuple unpacking needs exactly when such a separator occurs once |
| Text.Strip | backend/api/serializers.py:137-159 | the stripped string is the part of the input between its leading and trailing whitespace, empty exactly when the input is all whitespace |
| Text.StripPadded | backend/api/serializers.py:137-159 | whitespace added around a string that neither starts nor ends with whitespace is removed again, and nothing else |
| Text.StripKeeps | backend/api/serializers.py:137-159 | a character that is not whitespace and occurs in the input still occurs after stripping, so a null character cannot be stripped away before the null-character check |
| Text.StripPrefixOfLonger | backend/api/filters.py:33 | for a string not all whitespace, its stripped form is a prefix of the stripped form of any extension of it |
| Text.StripIdempotent | backend/api/serializers.py:137-159 | stripping twice gives the same as stripping once |
| Text.NatToString | backend/api/views.py:180-183 | a decimal rendering: at least one digit, only digits, no leading zero |
| Text.NatToStringRoundTrip | backend/api/views.py:180-183 | reading the rendered digits back gives the number |
| Text.IntToString | backend/api/views.py:180-183 | the rendering is decimal digits without a leading zero whose value is the number, after a minus sign exactly when it is negative |
| Text.Fold | backend/api/filters.py:33 | case folding maps each character independently and keeps the length |
| Aggregation.AddTo | backend/api/views.py:173-177 | adding one amount to a grouping with distinct keys keeps the keys distinct and raises only that key's sum |
| Aggregation.Aggregate | backend/api/views.py:173-177 | the grouping has distinct keys, the same keys as its input, and per key the same sum |
| Aggregation.AggregateCount | backend/api/views.py:173-177 | there are as many groups as distinct keys in the input |
| Aggregation.AggregateAmounts | backend/api/views.py:173-177 | each group's amount is the sum of the amounts the input carries under its key |
| Aggregation.AggregateCoversKeys | backend/api/views.py:173-177 | every key of the input has a group, and every group's key comes from the input |
| Views.FavoriteAction | backend/api/views.py:128-141 | a missing recipe gives not-found and changes nothing; DELETE removes the favorite and no other; POST adds a new favorite or, on an existing one, changes nothing and returns no response; only the favorites table changes |
| Views.CartAction | backend/api/views.py:150-163 | the same as for favorites, on the shopping-cart table |
| Views.SubscribeAction | backend/api/views.py:63-81 | a missing author gives not-found; DELETE removes the subscription; POST adds a new subscription, replying created when the author's entry renders and crashed when `recipes_limit` is refused, the row staying either way; POST of an existing one is rejected without change; only the subscription table changes |
| Views.FavoriteKeepsValid | backend/api/views.py:128-141 | the favorite action keeps every database invariant, including uniqueness of (user, recipe) |
| Views.CartKeepsValid | backend/api/views.py:150-163 | the cart action keeps every database invariant, including uniqueness of (user, recipe) |
| Views.SubscribeKeepsValid | backend/api/views.py:63-81 | the subscribe action keeps every database invariant |
| Views.FlagsFollowActions | backend/api/serializers.py:118-134 | after the favorite or cart action the recipe reads as favorited or in the cart exactly when the method was POST |
| Views.SubscribedFlagFollowsAction | backend/api/serializers.py:33-42 | after the subscribe action the author reads as subscribed exactly when the method was POST |
| Views.BadLimitKeepsSubscription | backend/api/views.py:65-78 | a POST with a non-numeric or negative `recipes_limit` crashes while rendering the entry, yet the new subscription is stored and reads as subscribed |
| Views.SelfSubscriptionAccepted | backend/api/views.py:63-78 | a user subscribing to themselves is accepted and then reads as subscribed |
| Views.DeleteAbsentFavoriteChangesNothing | backend/api/views.py:128-141 | DELETE of a favorite that does not exist leaves the database as it was |
| Views.DeleteAbsentCartChangesNothing | backend/api/views.py:150-163 | DELETE of a cart entry that does not exist leaves the database as it was |
| Views.DeleteAbsentSubscriptionChangesNothing | backend/api/views.py:63-81 | DELETE of a subscription that does not exist leaves the database as it was |
| Views.SubscribedAuthors | backend/api/views.py:47-54 | exactly the users the requester subscribes to, each once |
| Views.SubscriptionsMatchFlag | backend/api/views.py:47-54 | an author is in the subscriptions list exactly when the author reads as subscribed for the requester |
| Views.Subscriptions | backend/api/views.py:47-54 | one entry per followed author, in list order, with the embedded recipes for the limit and the full recipe count; fails only for a bad limit with a non-empty list |
| Views.CartItems | backend/api/views.py:173-174 | the inner join of the user's cart with the ingredient rows: every item is a cart row's amount under its ingredient's (name, unit), every such row appears, and under each key the items add up to the cart rows' total amount |
| Views.ShoppingList | backend/api/views.py:173-177 | the grouped query has one group per distinct (name, unit) among the user's cart rows, each carrying the total amount of those rows |
| Views.Render | backend/api/views.py:178-185 | the file has one line per group, in group order, each formatted as name, ` - `, amount, space, unit, newline |
| Views.DownloadShoppingCart | backend/api/views.py:172-186 | the file has one line per distinct (name, unit) in the user's cart, and each such key's line gives the cart's total amount for it |
| Views.EmptyCartEmptyList | backend/api/views.py:172-186 | an empty cart gives an empty list of lines, not an error |
| Views.SaltIsSummed | backend/api/views.py:173-185 | a cart holding two recipes with 5 g and 3 g of salt downloads as the single line `Salt - 8 g`. |
| Filters.TagsFilter | backend/api/filters.py:11-15 | with slugs given, keeps exactly the recipes with at least one tag whose slug is among them; without slugs keeps everything |
| Filters.AuthorFilter | backend/api/filters.py:17-19 | with an author given, keeps exactly that author's recipes; without one keeps everything |
| Filters.RelationFilter | backend/api/filters.py:21-29 | `true` keeps exactly the recipes in the requester's relation; false or absent returns the input unchanged; the anonymous case is left undetermined |
| Filters.FavoritedFilterAgreesWithFlag | backend/api/filters.py:26-29 | the `is_favorited` filter keeps exactly the recipes the read representation marks as favorited |
| Filters.CartFilterAgreesWithFlag | backend/api/filters.py:21-24 | the `is_in_shopping_cart` filter keeps exactly the recipes the read representation marks as in the cart |
| Filters.ApplyRecipeQuery | backend/api/filters.py:6-29 | an unknown slug or author is a bad request; otherwise the listing holds exactly the recipes matching every filter, and never more than the input |
| Filters.QueryStages | backend/api/filters.py:6-29 | the listing is the input passed through the tag, author, cart and favorite filters in that order, an inactive filter keeping everything |
| Filters.QueryIsOneFilter | backend/api/filters.py:6-29 | the filters compose by intersection: the listing is the input filtered once by the conjunction of all four filters, in input order |
| Filters.QueryOrderIrrelevant | backend/api/filters.py:6-29 | applying the four filters in reverse order gives the same listing |
| Basics.FilterReorder4 | backend/api/filters.py:6-29 | four successive filters give the same sequence when applied in reverse order |
| Filters.FalseIsAbsent | backend/api/filters.py:21-29 | a boolean filter set to false lists the same as the filter left out |
| Filters.IngredientsByName | backend/api/filters.py:32-33 | keeps exactly the ingredients whose folded name starts with the folded, stripped query; no query, or one of whitespace only, keeps everything |
| Filters.SurroundingSpacesIgnored | backend/api/filters.py:33 | a query and its stripped form select the same list |
| Filters.CaseInsensitiveQuery | backend/api/filters.py:33 | queries that fold to the same text once stripped select the same ingredients |
| Filters.LongerQueryNarrows | backend/api/filters.py:33 | extending the query can only drop ingredients |
| Filters.CyrillicPrefixExample | backend/api/filters.py:33 | with simple lower-casing, `ап` finds `Апельсин` and `АПЕЛЬСИН` but neither `Банан` nor `Сапоги`, which holds `ап` only in the middle |

## Left out

- HTTP status codes, response bodies, `FileResponse` streaming, pagination, `prefetch_related` and `select_related`. Replies are abstract.
- Permission classes and authentication. `IsAdminAuthorOrReadOnly` is not part of this model, and the requester is an explicit parameter.
- backend/users/models.py is not part of this model. A user is an id, and the `Subscribe` table is a relation of (user, author) pairs. The database invariants do not constrain foreign keys to users.
- The routing in backend/api/urls.py, the admin registration in backend/recipes/admin.py, and the seed command in backend/recipes/management/commands/load_tags.py. These hold no logic beyond I/O.
- Base64 decoding, `ContentFile` and image validation. Only the string split is modelled.
- `SubscribeSerializer.get_is_subscribed`. It filters on the requester's `is_authenticated` boolean, so its meaning depends on ORM coercion.
- Transactions and concurrency. No transaction is visible in the code, so clear-then-insert is modelled as written and a mid-write failure keeps earlier writes.
- PATCH (`partial_update`). Leaving out `ingredients` or `tags` fails after the tags were cleared; only full updates are modelled.
- The parsing of query strings into the filter values: slug lists, author ids, booleans and `recipes_limit`. These arrive parsed. The ingredient name query arrives raw and is stripped, as its form field does.
- Filters.RelationFilter: an anonymous requester with `is_favorited` or `is_in_shopping_cart` set to true gets `Undetermined`, because the outcome depends on how the ORM treats an anonymous user.
- Text.Fold: the fold function is a parameter standing for the database's case-insensitive `LIKE` behind `istartswith` (`UPPER(...) LIKE UPPER(...)` on PostgreSQL), not for Python's lower-casing. The Cyrillic example assumes a backend that folds Cyrillic letters; SQLite's `LIKE` folds ASCII letters only, so there `ап` would not find `АПЕЛЬСИН`.
- `pub_date` timestamps. The default newest-first ordering is represented by sequence order: a new recipe is prepended.
- Views.ShoppingList: the model orders the groups by the last occurrence of each key among the cart rows, latest first; the database does not promise any order.
- Views.ShoppingList: rows are grouped by ingredient name and unit, as the query does. Two distinct ingredients with the same name and unit share one line. This assumes Django 3.1 or later: earlier versions add `IngredientRecipe.Meta.ordering` (`pk`) to the `GROUP BY`, which gives one line per row, and then `SaltIsSummed` would not hold.
- Views.SubscribedAuthors: assumes `subscriber` is the `related_name` of `Subscribe.author`, since backend/users/models.py is not part of this model. The list follows the order of the subscription table rather than any default ordering of `User`.
- Serializers.CreateAsWritten and Serializers.UpdateAsWritten: the as-written path stores any integer cooking time or amount. The database column's own check (non-negative, at most 32767 as a small integer) is not modelled. The corrected `Create` and `Update` stay inside it.
- Serializers.Update: a clash of (name, text) with another recipe is refused before any write, as a validator derived from the `unique_recipe` constraint does. Whether the serializer derives that validator depends on the framework version. Without it, the database refuses at the final save, after the tags were cleared and the rows replaced; that path is not modelled. The same holds for Serializers.Create, where nothing has been written at that point.
- Deleting a user (the author foreign key's cascade) and deleting a tag or an ingredient are not modelled; recipe deletion is.

## Findings

| source | as written | input that shows it | evidently intended | confidence | as-written member | corrected member |
|---|---|---|---|---|---|---|
| backend/api/serializers.py:146 | `cooking_time` is a plain integer field on the serializer, so the model's 1..32000 validators never run, and a save does not run them either | a create request with `cooking_time` 0, or 32001 | refuse cooking times outside 1..32000, as the model field declares | medium, not executed | Serializers.CookingTimeZeroIsStored | Serializers.Create |
| backend/api/serializers.py:85 | the ingredient `amount` field sets `min_value=1` but no maximum, so the model's 32000 bound never runs | a create request with one ingredient of amount 32001 | refuse amounts above 32000, as the model field declares | medium, not executed | Serializers.AmountAboveMaxIsStored | Serializers.Create |

=== FILE: aggregation.dfy ===
/** Grouped sums: the `values(...).annotate(Sum(...))` query behind the
    shopping list, as a function on a sequence of keyed amounts. */
module Aggregation {

  datatype Item<K> = Item(key: K, amount: int)

  /** The sum of the amounts carried under key `k`. */
  function SumFor<K(==)>(items: seq<Item<K>>, k: K): int
  {
    if |items| == 0 then 0
    else (if items[0].key == k then items[0].amount else 0) + SumFor(items[1..], k)
  }

  function KeysOf<K>(items: seq<Item<K>>): set<K>
  {
    set i | i in items :: i.key
  }

  predicate DistinctKeys<K(==)>(groups: seq<Item<K>>)
  {
    forall i, j :: 0 <= i < j < |groups| ==> groups[i].key != groups[j].key
  }

  /** Fold one item into the groups: add to its group, or open a new group at
      the end. */
  function AddTo<K(==,!new)>(groups: seq<Item<K>>, it: Item<K>): (r: seq<Item<K>>)
    requires DistinctKeys(groups)
    ensures DistinctKeys(r)
    ensures KeysOf(r) == KeysOf(groups) + {it.key}
    ensures forall k :: SumFor(r, k) == SumFor(groups, k) + (if k == it.key then it.amount else 0)
  {
    if |groups| == 0 then [it]
    else if groups[0].key == it.key then
      var r := [groups[0].(amount := groups[0].amount + it.amount)] + groups[1..];
      assert r[1..] == groups[1..];
      assert KeysOf(r) == KeysOf(groups) by {
        assert forall x :: x in groups[1..] ==> x in groups && x in r;
        assert forall x :: x in r && x != r[0] ==> x in groups[1..];
        assert forall x :: x in groups && x != groups[0] ==> x in groups[1..];
      }
      r
    else
      var rest := AddTo(groups[1..], it);
      var r := [groups[0]] + rest;
      assert r[1..] == rest;
      assert KeysOf(groups) == {groups[0].key} + KeysOf(groups[1..]) by {
        assert forall x :: x in groups ==> x == groups[0] || x in groups[1..];
      }
      assert KeysOf(r) == {groups[0].key} + KeysOf(rest) by {
        assert forall x :: x in r ==> x == groups[0] || x in rest;
      }
      assert groups[0].key !in KeysOf(groups[1..]) by {
        forall x | x in groups[1..] ensures x.key != groups[0].key {
          var j :| 0 <= j < |groups[1..]| && groups[1..][j] == x;
          assert groups[j + 1] == x;
        }
      }
      r
  }

  /** Group the items by key, summing amounts. Every key of the input appears
      once, and each group carries the sum of that key's amounts. */
  function Aggregate<K(==,!new)>(items: seq<Item<K>>): (groups: seq<Item<K>>)
    ensures DistinctKeys(groups)
    ensures KeysOf(groups) == KeysOf(items)
    ensures forall k :: SumFor(groups, k) == SumFor(items, k)
  {
    if |items| == 0 then []
    else
      assert KeysOf(items) == {items[0].key} + KeysOf(items[1..]) by {
        assert forall x :: x in items ==> x == items[0] || x in items[1..];
      }
      AddTo(Aggregate(items[1..]), items[0])
  }

  /** With distinct keys, the sum under a group's key is that group's amount. */
  lemma {:induction false} GroupAmount<K>(groups: seq<Item<K>>, i: nat)
    requires DistinctKeys(groups) && i < |groups|
    ensures SumFor(groups, groups[i].key) == groups[i].amount
  {
    var k := groups[i].key;
    if i == 0 {
      KeyAbsentSumsZero(groups[1..], k);
    } else {
      GroupAmount(groups[1..], i - 1);
    }
  }

  /** A key no item carries sums to zero. */
  lemma {:induction false} KeyAbsentSumsZero<K>(items: seq<Item<K>>, k: K)
    requires k !in KeysOf(items)
    ensures SumFor(items, k) == 0
  {
    if |items| > 0 {
      assert items[0] in items;
      assert KeysOf(items[1..]) <= KeysOf(items) by {
        assert forall x :: x in items[1..] ==> x in items;
      }
      KeyAbsentSumsZero(items[1..], k);
    }
  }

  /** Distinct keys: as many groups as keys. */
  lemma {:induction false} DistinctKeysCount<K>(groups: seq<Item<K>>)
    requires DistinctKeys(groups)
    ensures |KeysOf(groups)| == |groups|
  {
    if |groups| > 0 {
      var rest := groups[1..];
      assert DistinctKeys(rest);
      DistinctKeysCount(rest);
      KeysOfCons(groups);
      HeadKeyFresh(groups);
      assert |{groups[0].key} + KeysOf(rest)| == 1 + |KeysOf(rest)|;
    }
  }

  lemma KeysOfCons<K>(items: seq<Item<K>>)
    requires |items| > 0
    ensures KeysOf(items) == {items[0].key} + KeysOf(items[1..])
  {
    assert forall x :: x in items ==> x == items[0] || x in items[1..];
  }

  lemma HeadKeyFresh<K>(groups: seq<Item<K>>)
    requires DistinctKeys(groups) && |groups| > 0
    ensures groups[0].key !in KeysOf(groups[1..])
  {
    var rest := groups[1..];
    forall x | x in rest ensures x.key != groups[0].key {
      var j :| 0 <= j < |rest| && rest[j] == x;
      assert groups[j + 1] == x;
    }
  }

  /** As many groups as distinct keys in the input. */
  lemma AggregateCount<K(!new)>(items: seq<Item<K>>)
    ensures |Aggregate(items)| == |KeysOf(items)|
  {
    DistinctKeysCount(Aggregate(items));
  }

  /** Each group carries the sum of its key's amounts in the input. */
  lemma AggregateAmounts<K(!new)>(items: seq<Item<K>>)
    ensures forall i :: 0 <= i < |Aggregate(items)| ==>
      Aggregate(items)[i].amount == SumFor(items, Aggregate(items)[i].key)
  {
    var groups := Aggregate(items);
    forall i | 0 <= i < |groups|
      ensures groups[i].amount == SumFor(items, groups[i].key)
    {
      GroupAmount(groups, i);
    }
  }

  /** Some group carries key `k`. */
  predicate HasGroup<K(==)>(groups: seq<Item<K>>, k: K)
  {
    exists i :: 0 <= i < |groups| && groups[i].key == k
  }

  /** A key has a group exactly when some input item carries it. */
  lemma AggregateCoversKeys<K(!new)>(items: seq<Item<K>>)
    ensures forall k :: k in KeysOf(items) ==> HasGroup(Aggregate(items), k)
    ensures forall i :: 0 <= i < |Aggregate(items)| ==> Aggregate(items)[i].key in KeysOf(items)
  {
    var groups := Aggregate(items);
    forall k | k in KeysOf(items)
      ensures HasGroup(groups, k)
    {
      assert k in KeysOf(groups);
      var x :| x in groups && x.key == k;
      var i :| 0 <= i < |groups| && groups[i] == x;
    }
    forall i | 0 <= i < |groups|
      ensures groups[i].key in KeysOf(items)
    {
      assert groups[i] in groups;
    }
  }
}

=== FILE: basics.dfy ===
/** Small generic building blocks shared by the whole model: an option type,
    the request outcome, and order-preserving filtering of sequences (the
    shape every queryset `.filter(...)` takes in this model). */
module Basics {

  datatype Option<T> = None | Some(value: T)

  /** What a request handler answers. Several HTTP codes are folded into the
      kind of answer, because the status codes themselves are framework detail. */
  datatype Reply =
    | Created     // a new row or recipe was stored and is returned
    | Updated     // an existing recipe was rewritten
    | Removed     // a relation row was deleted (or never existed)
    | Invalid     // a validation error: nothing was written
    | NotFound    // `get_object_or_404` found no such object
    | NoResponse  // the view fell through all its branches and returned nothing
    | Crashed     // an uncaught exception interrupted the request

  /** The store after a request together with the answer given. */
  datatype Outcome<S> = Outcome(store: S, reply: Reply)

  /** The elements of `s` satisfying `keep`, in their original order. */
  function Filter<T(!new)>(s: seq<T>, keep: T -> bool): (r: seq<T>)
    ensures |r| <= |s|
    ensures forall x :: x in r <==> x in s && keep(x)
  {
    if |s| == 0 then []
    else if keep(s[0]) then [s[0]] + Filter(s[1..], keep)
    else Filter(s[1..], keep)
  }

  /** Filtering distributes over concatenation. */
  lemma {:induction false} FilterAppend<T(!new)>(a: seq<T>, b: seq<T>, keep: T -> bool)
    ensures Filter(a + b, keep) == Filter(a, keep) + Filter(b, keep)
  {
    if |a| == 0 {
      assert a + b == b;
    } else {
      assert (a + b)[0] == a[0];
      assert (a + b)[1..] == a[1..] + b;
      FilterAppend(a[1..], b, keep);
    }
  }

  /** A filter every element passes changes nothing. */
  lemma {:induction false} FilterKeepsAll<T(!new)>(s: seq<T>, keep: T -> bool)
    requires forall x :: x in s ==> keep(x)
    ensures Filter(s, keep) == s
  {
    if |s| > 0 {
      assert forall x :: x in s[1..] ==> x in s;
      FilterKeepsAll(s[1..], keep);
    }
  }

  /** A filter no element passes leaves nothing. */
  lemma {:induction false} FilterDropsAll<T(!new)>(s: seq<T>, keep: T -> bool)
    requires forall x :: x in s ==> !keep(x)
    ensures Filter(s, keep) == []
  {
    if |s| > 0 {
      assert forall x :: x in s[1..] ==> x in s;
      FilterDropsAll(s[1..], keep);
    }
  }

  /** Two successive filters are one filter by the conjunction, so a chain of
      filters is their intersection, order and multiplicity included. */
  lemma {:induction false} FilterTwice<T(!new)>(s: seq<T>, p: T -> bool, q: T -> bool, both: T -> bool)
    requires forall x :: both(x) == (p(x) && q(x))
    ensures Filter(Filter(s, p), q) == Filter(s, both)
  {
    if |s| > 0 {
      FilterTwice(s[1..], p, q, both);
      if p(s[0]) {
        assert Filter(s, p) == [s[0]] + Filter(s[1..], p);
        assert Filter(s, p)[1..] == Filter(s[1..], p);
      }
    }
  }

  /** Filters by pointwise-equal predicates agree. */
  lemma {:induction false} FilterSameKeep<T(!new)>(s: seq<T>, p: T -> bool, q: T -> bool)
    requires forall x :: p(x) == q(x)
    ensures Filter(s, p) == Filter(s, q)
  {
    if |s| > 0 {
      FilterSameKeep(s[1..], p, q);
    }
  }

  /** Four filters applied in reverse order keep the same elements in the
      same order. */
  lemma FilterReorder4<T(!new)>(s: seq<T>, a: T -> bool, b: T -> bool, c: T -> bool, d: T -> bool)
    ensures Filter(Filter(Filter(Filter(s, a), b), c), d) == Filter(Filter(Filter(Filter(s, d), c), b), a)
  {
    var ab := (x: T) => a(x) && b(x);
    var abc := (x: T) => ab(x) && c(x);
    var abcd := (x: T) => abc(x) && d(x);
    FilterTwice(s, a, b, ab);
    FilterTwice(s, ab, c, abc);
    FilterTwice(s, abc, d, abcd);
    var dc := (x: T) => d(x) && c(x);
    var dcb := (x: T) => dc(x) && b(x);
    var dcba := (x: T) => dcb(x) && a(x);
    FilterTwice(s, d, c, dc);
    FilterTwice(s, dc, b, dcb);
    FilterTwice(s, dcb, a, dcba);
    FilterSameKeep(s, abcd, dcba);
  }

  /** Python's `s[:n]` for a non-negative `n`: the first `min(n, |s|)` elements. */
  function Take<T>(s: seq<T>, n: nat): (r: seq<T>)
    ensures |r| == if n < |s| then n else |s|
    ensures r <= s
  {
    if n < |s| then s[..n] else s
  }

  /** The set of elements of a sequence. */
  function Elements<T>(s: seq<T>): set<T>
  {
    set x | x in s
  }
}

=== FILE: filters.dfy ===
/** The list filters: `RecipeFilter` over the recipe list and
    `IngredientFilter` over the ingredient list. Query parameters arrive
    already parsed (a slug list, an optional author id, optional booleans);
    the string-to-value parsing of the filter forms is not modelled, except
    for the stripping of the ingredient name query. */
module Filters {
  import opened Basics
  import opened Text
  import opened Toggles
  import opened Models
  import opened Serializers

  /** The parsed query string of the recipe list. An absent or empty
      parameter disables its filter. */
  datatype RecipeQuery = RecipeQuery(
    tags: seq<string>,
    author: Option<int>,
    isInCart: Option<bool>,
    isFavorited: Option<bool>)

  /** What the filtered list request gives back. `Undetermined` marks an
      anonymous requester asking for their own favorites or cart, whose
      outcome depends on how the ORM treats an anonymous user. */
  datatype Listing = Listed(recipes: seq<Recipe>) | BadRequest | Undetermined

  function TagSlugs(s: Store): set<string>
  {
    set t | t in s.tags :: t.slug
  }

  /** The form validation that runs before any filter: every slug must name a
      tag, and the author must be a user. */
  predicate QueryValid(s: Store, q: RecipeQuery)
  {
    && (forall slug :: slug in q.tags ==> slug in TagSlugs(s))
    && (q.author.Some? ==> q.author.value in s.users)
  }

  // ---------------------------------------------------------------------------
  // What each filter keeps. Each is true everywhere when its parameter is off.

  /** `tags`: at least one of the recipe's tags has one of the given slugs. */
  function TagKeep(s: Store, slugs: seq<string>): Recipe -> bool
  {
    (r: Recipe) => |slugs| == 0 || exists t :: t in s.tags && t.slug in slugs && t.id in r.tags
  }

  /** `author`: the recipe's author is the given user. */
  function AuthorKeep(author: Option<int>): Recipe -> bool
  {
    (r: Recipe) => author.None? || r.author == author.value
  }

  /** `is_in_shopping_cart` / `is_favorited`: the requester has the recipe in
      the given relation. */
  function RelationKeep(rel: Relation, who: Requester, value: Option<bool>): Recipe -> bool
  {
    (r: Recipe) => value != Some(true) || (who.Member? && Pair(who.id, r.id) in rel)
  }

  /** Every filter of the query at once. */
  predicate Matches(s: Store, who: Requester, q: RecipeQuery, r: Recipe)
  {
    && TagKeep(s, q.tags)(r)
    && AuthorKeep(q.author)(r)
    && RelationKeep(s.carts, who, q.isInCart)(r)
    && RelationKeep(s.favorites, who, q.isFavorited)(r)
  }

  // ---------------------------------------------------------------------------
  // The filters, one at a time

  /** `RecipeFilter.tags`: any-of matching on tag slugs. */
  function TagsFilter(s: Store, rs: seq<Recipe>, slugs: seq<string>): (r: seq<Recipe>)
    ensures |slugs| == 0 ==> r == rs
    ensures |slugs| > 0 ==> forall x :: x in r <==>
      x in rs && exists t :: t in s.tags && t.slug in slugs && t.id in x.tags
    ensures |r| <= |rs|
  {
    if |slugs| == 0 then rs else Filter(rs, TagKeep(s, slugs))
  }

  /** The `author` field filter: exact match. */
  function AuthorFilter(rs: seq<Recipe>, author: Option<int>): (r: seq<Recipe>)
    ensures author.None? ==> r == rs
    ensures author.Some? ==> forall x :: x in r <==> x in rs && x.author == author.value
    ensures |r| <= |rs|
  {
    if author.None? then rs else Filter(rs, AuthorKeep(author))
  }

  /** `RecipeFilter.get_is_in_shopping_cart` and `get_is_favorited`, which
      differ only in the relation they join. `None` is the anonymous case. */
  function RelationFilter(rs: seq<Recipe>, rel: Relation, who: Requester, value: Option<bool>): (r: Option<seq<Recipe>>)
    ensures value != Some(true) ==> r == Some(rs)
    ensures value == Some(true) && who.Anonymous? ==> r.None?
    ensures value == Some(true) && who.Member? ==>
      r.Some? && forall x :: x in r.value <==> x in rs && Pair(who.id, x.id) in rel
    ensures r.Some? ==> |r.value| <= |rs|
  {
    if value != Some(true) then Some(rs)
    else if who.Anonymous? then None
    else Some(Filter(rs, RelationKeep(rel, who, value)))
  }

  /** The `is_favorited` filter keeps exactly the recipes that read as
      favorited for the same requester. */
  lemma FavoritedFilterAgreesWithFlag(s: Store, rs: seq<Recipe>, u: int, x: Recipe)
    ensures x in RelationFilter(rs, s.favorites, Member(u), Some(true)).value <==>
      x in rs && IsFavorited(s, Member(u), x.id)
  {
  }

  /** The `is_in_shopping_cart` filter keeps exactly the recipes that read as
      in the cart for the same requester. */
  lemma CartFilterAgreesWithFlag(s: Store, rs: seq<Recipe>, u: int, x: Recipe)
    ensures x in RelationFilter(rs, s.carts, Member(u), Some(true)).value <==>
      x in rs && IsInCart(s, Member(u), x.id)
  {
  }

  // ---------------------------------------------------------------------------
  // The whole query

  /** `RecipeFilter` applied to the recipe list: validate, then filter by
      `tags`, `author`, `is_in_shopping_cart`, `is_favorited` in that order. */
  function ApplyRecipeQuery(s: Store, who: Requester, q: RecipeQuery): (l: Listing)
    ensures !QueryValid(s, q) ==> l == BadRequest
    ensures QueryValid(s, q) && who.Anonymous? && (q.isInCart == Some(true) || q.isFavorited == Some(true)) ==>
      l == Undetermined
    ensures QueryValid(s, q) && (who.Member? || (q.isInCart != Some(true) && q.isFavorited != Some(true))) ==>
      l.Listed?
    ensures l.Listed? ==> |l.recipes| <= |s.recipes|
    ensures l.Listed? ==> forall x :: x in l.recipes <==> x in s.recipes && Matches(s, who, q, x)
  {
    if !QueryValid(s, q) then BadRequest
    else
      var byTag := TagsFilter(s, s.recipes, q.tags);
      var byAuthor := AuthorFilter(byTag, q.author);
      match RelationFilter(byAuthor, s.carts, who, q.isInCart)
      case None => Undetermined
      case Some(inCart) =>
        match RelationFilter(inCart, s.favorites, who, q.isFavorited)
        case None => Undetermined
        case Some(favorited) => Listed(favorited)
  }

  /** A filter stage that passes its input through is the same as filtering
      by a predicate that keeps everything. */
  lemma StageIsFilter(rs: seq<Recipe>, out: seq<Recipe>, keep: Recipe -> bool, active: bool)
    requires !active ==> out == rs && forall x :: keep(x)
    requires active ==> out == Filter(rs, keep)
    ensures out == Filter(rs, keep)
  {
    if !active {
      FilterKeepsAll(rs, keep);
    }
  }

  /** The listing is the input run through the four filters in turn. */
  lemma QueryStages(s: Store, who: Requester, q: RecipeQuery)
    requires ApplyRecipeQuery(s, who, q).Listed?
    ensures ApplyRecipeQuery(s, who, q).recipes ==
      Filter(Filter(Filter(Filter(s.recipes, TagKeep(s, q.tags)), AuthorKeep(q.author)),
                    RelationKeep(s.carts, who, q.isInCart)), RelationKeep(s.favorites, who, q.isFavorited))
  {
    var a := TagsFilter(s, s.recipes, q.tags);
    StageIsFilter(s.recipes, a, TagKeep(s, q.tags), |q.tags| > 0);
    var b := AuthorFilter(a, q.author);
    StageIsFilter(a, b, AuthorKeep(q.author), q.author.Some?);
    var c := RelationFilter(b, s.carts, who, q.isInCart).value;
    StageIsFilter(b, c, RelationKeep(s.carts, who, q.isInCart), q.isInCart == Some(true));
    var d := RelationFilter(c, s.favorites, who, q.isFavorited).value;
    StageIsFilter(c, d, RelationKeep(s.favorites, who, q.isFavorited), q.isFavorited == Some(true));
  }

  /** The listed recipes are exactly the input recipes that match every
      filter, in the input's order: filters compose by intersection. */
  lemma QueryIsOneFilter(s: Store, who: Requester, q: RecipeQuery)
    requires ApplyRecipeQuery(s, who, q).Listed?
    ensures ApplyRecipeQuery(s, who, q).recipes == Filter(s.recipes, (x: Recipe) => Matches(s, who, q, x))
  {
    QueryStages(s, who, q);
    var k1 := TagKeep(s, q.tags);
    var k2 := AuthorKeep(q.author);
    var k3 := RelationKeep(s.carts, who, q.isInCart);
    var k4 := RelationKeep(s.favorites, who, q.isFavorited);
    var k12 := (x: Recipe) => k1(x) && k2(x);
    var k123 := (x: Recipe) => k12(x) && k3(x);
    var all := (x: Recipe) => Matches(s, who, q, x);
    FilterTwice(s.recipes, k1, k2, k12);
    FilterTwice(s.recipes, k12, k3, k123);
    FilterTwice(s.recipes, k123, k4, all);
  }

  /** The order of the filters does not matter: favorites first, then the
      cart, then author, then tags lists the same recipes in the same order. */
  lemma QueryOrderIrrelevant(s: Store, who: Requester, q: RecipeQuery)
    requires ApplyRecipeQuery(s, who, q).Listed?
    ensures Filter(Filter(Filter(Filter(s.recipes, RelationKeep(s.favorites, who, q.isFavorited)),
                                 RelationKeep(s.carts, who, q.isInCart)), AuthorKeep(q.author)),
                   TagKeep(s, q.tags))
            == ApplyRecipeQuery(s, who, q).recipes
  {
    QueryStages(s, who, q);
    FilterReorder4(s.recipes, TagKeep(s, q.tags), AuthorKeep(q.author),
                   RelationKeep(s.carts, who, q.isInCart), RelationKeep(s.favorites, who, q.isFavorited));
  }

  /** Turning a boolean filter off, or setting it to false, lists the same
      recipes as leaving it out. */
  lemma FalseIsAbsent(s: Store, who: Requester, q: RecipeQuery)
    ensures ApplyRecipeQuery(s, who, q.(isFavorited := Some(false))) == ApplyRecipeQuery(s, who, q.(isFavorited := None))
    ensures ApplyRecipeQuery(s, who, q.(isInCart := Some(false))) == ApplyRecipeQuery(s, who, q.(isInCart := None))
  {
  }

  // ---------------------------------------------------------------------------
  // Ingredient name

  /** `IngredientFilter.name` with `istartswith`: the ingredients whose name,
      case-folded, starts with the case-folded query. The filter's form field
      strips the query first, and an absent query or one that strips to
      nothing keeps everything. The folding function is a parameter. */
  function IngredientsByName(ings: seq<Ingredient>, name: Option<string>, fold: char -> char): (r: seq<Ingredient>)
    ensures name.None? ==> r == ings
    ensures name.Some? && AllSpace(name.value) ==> r == ings
    ensures name.Some? ==> forall i :: i in r <==> i in ings && StartsWith(Fold(i.name, fold), Fold(Strip(name.value), fold))
    ensures |r| <= |ings|
  {
    if name.None? then ings
    else
      var q := Strip(name.value);
      if |q| == 0 then ings
      else Filter(ings, (i: Ingredient) => StartsWith(Fold(i.name, fold), Fold(q, fold)))
  }

  /** Whitespace around the query changes nothing: the query and its
      stripped form select the same list. */
  lemma SurroundingSpacesIgnored(ings: seq<Ingredient>, q: string, fold: char -> char)
    ensures IngredientsByName(ings, Some(q), fold) == IngredientsByName(ings, Some(Strip(q)), fold)
  {
    StripIdempotent(q);
  }

  /** Queries that fold to the same text once stripped select the same
      ingredients. */
  lemma CaseInsensitiveQuery(ings: seq<Ingredient>, a: string, b: string, fold: char -> char)
    requires Fold(Strip(a), fold) == Fold(Strip(b), fold)
    ensures forall i :: i in IngredientsByName(ings, Some(a), fold) <==> i in IngredientsByName(ings, Some(b), fold)
  {
  }

  /** A longer query selects fewer ingredients: everything matching
      `q + more` also matches `q`. */
  lemma LongerQueryNarrows(ings: seq<Ingredient>, q: string, more: string, fold: char -> char)
    ensures forall i :: i in IngredientsByName(ings, Some(q + more), fold) ==> i in IngredientsByName(ings, Some(q), fold)
  {
    var p := Strip(q);
    if |p| > 0 {
      StripPrefixOfLonger(q, more);
      var longer := Strip(q + more);
      var rest := longer[|p|..];
      assert longer == p + rest;
      FoldAppend(p, rest, fold);
      forall i | i in IngredientsByName(ings, Some(q + more), fold)
        ensures i in IngredientsByName(ings, Some(q), fold)
      {
        StartsWithShorter(Fold(i.name, fold), Fold(p, fold), Fold(rest, fold));
      }
    }
  }

  /** With simple lower-casing, "ап" finds "Апельсин" and "АПЕЛЬСИН" but
      not "Банан", nor "Сапоги", which holds "ап" but does not start with
      it, whatever their ids and units. */
  lemma CyrillicPrefixExample(ings: seq<Ingredient>)
    requires |ings| == 4
    requires ings[0].name == "Апельсин" && ings[1].name == "АПЕЛЬСИН" && ings[2].name == "Банан"
    requires ings[3].name == "Сапоги"
    ensures var r := IngredientsByName(ings, Some("ап"), SimpleLower);
            ings[0] in r && ings[1] in r && ings[2] !in r && ings[3] !in r
  {
    QueryIsStripped();
    FoldedQuery();
    OrangeMatches();
    UpperOrangeMatches();
    BananaDoesNot();
    BootsDoNot();
  }

  lemma QueryIsStripped()
    ensures Strip("ап") == "ап"
  {
    StripPadded([], "ап", []);
    assert [] + "ап" + [] == "ап";
  }

  lemma FoldedQuery()
    ensures Fold("ап", SimpleLower) == "ап"
  {
    var q := Fold("ап", SimpleLower);
    assert q[0] == SimpleLower('а') && q[1] == SimpleLower('п');
  }

  lemma OrangeMatches()
    ensures StartsWith(Fold("Апельсин", SimpleLower), "ап")
  {
    var a := Fold("Апельсин", SimpleLower);
    assert a[0] == SimpleLower('А') && a[1] == SimpleLower('п');
    assert a[..2] == "ап";
  }

  lemma UpperOrangeMatches()
    ensures StartsWith(Fold("АПЕЛЬСИН", SimpleLower), "ап")
  {
    var b := Fold("АПЕЛЬСИН", SimpleLower);
    assert b[0] == SimpleLower('А') && b[1] == SimpleLower('П');
    assert b[..2] == "ап";
  }

  lemma BananaDoesNot()
    ensures !StartsWith(Fold("Банан", SimpleLower), "ап")
  {
    var c := Fold("Банан", SimpleLower);
    assert c[0] == SimpleLower('Б');
  }

  lemma BootsDoNot()
    ensures Contains(Fold("Сапоги", SimpleLower), "ап")
    ensures !StartsWith(Fold("Сапоги", SimpleLower), "ап")
  {
    var d := Fold("Сапоги", SimpleLower);
    assert d[0] == SimpleLower('С');
    assert d[1] == SimpleLower('а') && d[2] == SimpleLower('п');
    assert OccursAt(d, "ап", 1) by { assert d[1..3] == "ап"; }
  }
}

=== FILE: models.dfy ===
/** The relational data model of the recipe store: tags, ingredients, recipes,
    the ingredient-recipe rows carrying amounts, and the favorite, shopping-cart
    and subscription relations. The store is an immutable value; every request
    is a function from one store to the next. */
module Models {
  import opened Basics
  import opened Toggles

  /** Length of the label `__str__` returns. */
  const MAX_NAME := 25
  /** Lower bound of `cooking_time` and of an ingredient `amount`. */
  const MIN_TIME := 1
  /** Upper bound of `cooking_time` and of an ingredient `amount`. */
  const MAX_TIME := 32000
  /** `max_length` of the name fields. */
  const MAX_LENGTH := 200

  datatype Tag = Tag(id: int, name: string, color: string, slug: string)
  {
    /** `Tag.__str__` */
    function Str(): (r: string)
      ensures r <= name && |r| == if |name| < MAX_NAME then |name| else MAX_NAME
    {
      Label(name)
    }
  }

  datatype Ingredient = Ingredient(id: int, name: string, unit: string)
  {
    /** `Ingredient.__str__` */
    function Str(): (r: string)
      ensures r <= name && |r| == if |name| < MAX_NAME then |name| else MAX_NAME
    {
      Label(name)
    }
  }

  /** A recipe row together with its tag links (the many-to-many table). */
  datatype Recipe = Recipe(id: int, author: int, name: string, image: string,
                           text: string, cookingTime: int, tags: set<int>)
  {
    /** `Recipe.__str__` */
    function Str(): (r: string)
      ensures r <= name && |r| == if |name| < MAX_NAME then |name| else MAX_NAME
    {
      Label(name)
    }
  }

  /** One row of the `IngredientRecipe` table. There is no uniqueness
      constraint on (ingredient, recipe). */
  datatype IngredientRecipe = IngredientRecipe(ingredient: int, recipe: int, amount: int)

  /** The whole database. `recipes` is kept newest first, the default ordering
      by descending publication date; `nextId` is the next recipe primary key. */
  datatype Store = Store(
    users: set<int>,
    tags: seq<Tag>,
    ingredients: seq<Ingredient>,
    recipes: seq<Recipe>,
    rows: seq<IngredientRecipe>,
    favorites: Relation,
    carts: Relation,
    subscriptions: Relation,
    nextId: int)

  /** `name[:MAX_NAME]` */
  function Label(name: string): (r: string)
    ensures r <= name
    ensures |r| <= MAX_NAME
    ensures |name| <= MAX_NAME ==> r == name
    ensures |name| > MAX_NAME ==> |r| == MAX_NAME
  {
    if |name| <= MAX_NAME then name else name[..MAX_NAME]
  }

  /** Truncating twice is truncating once. */
  lemma LabelIdempotent(name: string)
    ensures Label(Label(name)) == Label(name)
  {
  }

  /** `IngredientRecipe.__str__`: the two labels separated by a space. */
  function IngredientRecipeStr(ing: Ingredient, recipe: Recipe): (r: string)
    ensures |r| == |ing.Str()| + 1 + |recipe.Str()| <= 2 * MAX_NAME + 1
    ensures r[..|ing.Str()|] == ing.Str() && r[|ing.Str()|] == ' '
    ensures r[|ing.Str()| + 1..] == recipe.Str()
  {
    ing.Str() + " " + recipe.Str()
  }

  /** `Favorite.__str__`; the user's own label is given, the user model is not
      part of this model. */
  function FavoriteStr(userLabel: string, recipe: Recipe): (r: string)
    ensures |r| == |userLabel| + 1 + |recipe.Str()| <= |userLabel| + 1 + MAX_NAME
    ensures r[..|userLabel|] == userLabel && r[|userLabel|] == ' '
    ensures r[|userLabel| + 1..] == recipe.Str()
  {
    userLabel + " " + recipe.Str()
  }

  /** `ShoppingCart.__str__`: the recipe label first, then the user. */
  function CartStr(userLabel: string, recipe: Recipe): (r: string)
    ensures |r| == |recipe.Str()| + |" в списке покупок у "| + |userLabel|
    ensures |r| <= MAX_NAME + |" в списке покупок у "| + |userLabel|
    ensures r[..|recipe.Str()|] == recipe.Str()
    ensures r[|recipe.Str()|..|r| - |userLabel|] == " в списке покупок у "
    ensures r[|r| - |userLabel|..] == userLabel
  {
    recipe.Str() + " в списке покупок у " + userLabel
  }

  predicate InTimeRange(n: int)
  {
    MIN_TIME <= n <= MAX_TIME
  }

  function TagIds(s: Store): set<int>
  {
    set t | t in s.tags :: t.id
  }

  function IngredientIds(s: Store): set<int>
  {
    set i | i in s.ingredients :: i.id
  }

  function RecipeIds(s: Store): set<int>
  {
    set r | r in s.recipes :: r.id
  }

  /** `unique=True` on the tag's primary key, name, color and slug. */
  predicate TagsUnique(tags: seq<Tag>)
  {
    forall i, j :: 0 <= i < j < |tags| ==>
      && tags[i].id != tags[j].id
      && tags[i].name != tags[j].name
      && tags[i].color != tags[j].color
      && tags[i].slug != tags[j].slug
  }

  predicate IngredientsUnique(ings: seq<Ingredient>)
  {
    forall i, j :: 0 <= i < j < |ings| ==> ings[i].id != ings[j].id
  }

  /** Primary keys are distinct, and so is each recipe's (name, text) pair:
      the `unique_recipe` constraint. */
  predicate RecipesUnique(rs: seq<Recipe>)
  {
    forall i, j :: 0 <= i < j < |rs| ==>
      rs[i].id != rs[j].id && (rs[i].name != rs[j].name || rs[i].text != rs[j].text)
  }

  predicate RecipeOk(s: Store, r: Recipe)
  {
    InTimeRange(r.cookingTime) && r.id < s.nextId && r.tags <= TagIds(s)
  }

  predicate RowOk(s: Store, row: IngredientRecipe)
  {
    InTimeRange(row.amount) && row.recipe in RecipeIds(s) && row.ingredient in IngredientIds(s)
  }

  /** The database invariants: field bounds, unique constraints, and the
      foreign keys to recipes, ingredients and tags pointing at existing rows.
      Keys to users (a recipe's author, the user side of a favorite or cart
      entry, both sides of a subscription) are not constrained, since users
      are plain ids here. */
  predicate Valid(s: Store)
  {
    && TagsUnique(s.tags)
    && IngredientsUnique(s.ingredients)
    && RecipesUnique(s.recipes)
    && (forall r :: r in s.recipes ==> RecipeOk(s, r))
    && (forall row :: row in s.rows ==> RowOk(s, row))
    && Unique(s.favorites) && Unique(s.carts) && Unique(s.subscriptions)
    && (forall p :: p in s.favorites ==> p.target in RecipeIds(s))
    && (forall p :: p in s.carts ==> p.target in RecipeIds(s))
  }

  /** The ingredient rows of one recipe, in insertion order. */
  function RowsOf(rows: seq<IngredientRecipe>, id: int): seq<IngredientRecipe>
  {
    Filter(rows, (row: IngredientRecipe) => row.recipe == id)
  }

  /** All rows except those of one recipe. */
  function RowsWithout(rows: seq<IngredientRecipe>, id: int): seq<IngredientRecipe>
  {
    Filter(rows, (row: IngredientRecipe) => row.recipe != id)
  }

  /** Per recipe, removing one recipe's rows leaves every other recipe's rows
      exactly as they were and the removed recipe with none. */
  lemma RowsOfWithout(rows: seq<IngredientRecipe>, id: int, other: int)
    ensures RowsOf(RowsWithout(rows, id), other) == if other == id then [] else RowsOf(rows, other)
  {
    var p := (row: IngredientRecipe) => row.recipe != id;
    var q := (row: IngredientRecipe) => row.recipe == other;
    var both := (row: IngredientRecipe) => p(row) && q(row);
    FilterTwice(rows, p, q, both);
    if other == id {
      FilterDropsAll(rows, both);
    } else {
      FilterSameKeep(rows, both, q);
    }
  }

  function TargetIsNot(id: int): Pair -> bool
  {
    (p: Pair) => p.target != id
  }

  /** Deleting a recipe, with the `on_delete=CASCADE` of every foreign key
      that points at it. */
  function DeleteRecipe(s: Store, id: int): (s': Store)
    ensures RecipeIds(s') == RecipeIds(s) - {id}
    ensures forall r :: r in s'.recipes <==> r in s.recipes && r.id != id
    ensures forall other :: RowsOf(s'.rows, other) == if other == id then [] else RowsOf(s.rows, other)
    ensures forall p :: p in s'.favorites <==> p in s.favorites && p.target != id
    ensures forall p :: p in s'.carts <==> p in s.carts && p.target != id
    ensures s'.tags == s.tags && s'.ingredients == s.ingredients && s'.users == s.users
    ensures s'.subscriptions == s.subscriptions && s'.nextId == s.nextId
  {
    var rows := RowsWithout(s.rows, id);
    assert forall other :: RowsOf(rows, other) == if other == id then [] else RowsOf(s.rows, other) by {
      forall other {
        RowsOfWithout(s.rows, id, other);
      }
    }
    s.(recipes := Filter(s.recipes, (r: Recipe) => r.id != id),
       rows := rows,
       favorites := Filter(s.favorites, TargetIsNot(id)),
       carts := Filter(s.carts, TargetIsNot(id)))
  }

  /** Deleting a recipe keeps the database consistent: no row is left pointing
      at the deleted recipe. */
  lemma DeleteRecipeKeepsValid(s: Store, id: int)
    requires Valid(s)
    ensures Valid(DeleteRecipe(s, id))
  {
    var s' := DeleteRecipe(s, id);
    FilterKeepsUnique(s.favorites, TargetIsNot(id));
    FilterKeepsUnique(s.carts, TargetIsNot(id));
    RecipeFilterKeepsUnique(s.recipes, (r: Recipe) => r.id != id);
    forall row | row in s'.rows
      ensures RowOk(s', row)
    {
      assert row in s.rows;
    }
  }

  lemma {:induction false} RecipeFilterKeepsUnique(rs: seq<Recipe>, keep: Recipe -> bool)
    requires RecipesUnique(rs)
    ensures RecipesUnique(Filter(rs, keep))
  {
    if |rs| > 0 {
      assert RecipesUnique(rs[1..]);
      RecipeFilterKeepsUnique(rs[1..], keep);
      if keep(rs[0]) {
        var f := Filter(rs, keep);
        assert f == [rs[0]] + Filter(rs[1..], keep);
        forall j | 0 < j < |f|
          ensures f[0].id != f[j].id && (f[0].name != f[j].name || f[0].text != f[j].text)
        {
          assert f[j] in rs[1..];
        }
      }
    }
  }

  /** A new tag row, as the unique constraints of the tag table admit it. */
  function InsertTag(s: Store, t: Tag): (r: Option<Store>)
    ensures r.Some? <==> forall u :: u in s.tags ==>
      u.id != t.id && u.name != t.name && u.color != t.color && u.slug != t.slug
    ensures r.Some? ==> r.value.tags == s.tags + [t]
    ensures r.Some? && TagsUnique(s.tags) ==> TagsUnique(r.value.tags)
  {
    if forall u :: u in s.tags ==>
      u.id != t.id && u.name != t.name && u.color != t.color && u.slug != t.slug
    then
      var tags := s.tags + [t];
      assert forall i :: 0 <= i < |s.tags| ==> tags[i] in s.tags;
      Some(s.(tags := tags))
    else None
  }

  /** Adding a tag that passes the constraints keeps the database consistent. */
  lemma InsertTagKeepsValid(s: Store, t: Tag)
    requires Valid(s)
    ensures InsertTag(s, t).Some? ==> Valid(InsertTag(s, t).value)
  {
    if InsertTag(s, t).Some? {
      var s' := InsertTag(s, t).value;
      assert TagIds(s) <= TagIds(s');
      forall r | r in s'.recipes ensures RecipeOk(s', r) {
        assert RecipeOk(s, r);
      }
    }
  }
}

=== FILE: serializers.dfy ===
/** The serializers' logic: validating and writing a recipe with its tags and
    ingredient rows, splitting an inline image string, the per-requester flags
    of the read representation, and the recipes embedded in a subscription. */
module Serializers {
  import opened Basics
  import opened Text
  import opened Toggles
  import opened Models

  /** One element of the submitted `ingredients` list. */
  datatype IngredientEntry = IngredientEntry(id: int, amount: int)

  /** The write representation of a recipe, with the image already turned
      into a stored file reference. */
  datatype RecipePayload = RecipePayload(
    tags: seq<int>,
    ingredients: seq<IngredientEntry>,
    name: string,
    image: string,
    text: string,
    cookingTime: int)

  /** Who sends the request. */
  datatype Requester = Anonymous | Member(id: int)

  // ---------------------------------------------------------------------------
  // Validation

  /** Another recipe than the one being edited already has this name and text. */
  predicate ContentTaken(s: Store, name: string, text: string, editing: Option<int>)
  {
    exists r :: r in s.recipes && r.name == name && r.text == text && editing != Some(r.id)
  }

  /** The payload as validation hands it on: the string fields generated for
      `name` and `text` strip surrounding whitespace, and everything after
      sees and stores the stripped text. */
  function Cleaned(p: RecipePayload): RecipePayload
  {
    p.(name := Strip(p.name), text := Strip(p.text))
  }

  /** Cleaning keeps a null character where it was. */
  lemma NullSurvivesCleaning(p: RecipePayload)
    ensures '\0' in p.name ==> '\0' in Cleaned(p).name
    ensures '\0' in p.text ==> '\0' in Cleaned(p).text
  {
    if '\0' in p.name { StripKeeps(p.name, '\0'); }
    if '\0' in p.text { StripKeeps(p.text, '\0'); }
  }

  /** The checks the serializer performs as written, on the cleaned payload:
      every tag id names an existing tag, every amount is at least 1, the name
      is non-blank and at most 200 characters, the text is non-blank, neither
      holds a null character, and the (name, text) pair is free. `cooking_time` is declared as a bare integer
      field, and the amount field has no upper bound, so neither is checked
      against 32000; model field validators are not run when a row is saved. */
  predicate AcceptedAsWritten(s: Store, p: RecipePayload, editing: Option<int>)
  {
    && (forall t :: t in p.tags ==> t in TagIds(s))
    && (forall e :: e in p.ingredients ==> e.amount >= MIN_TIME)
    && 0 < |p.name| <= MAX_LENGTH
    && 0 < |p.text|
    && '\0' !in p.name && '\0' !in p.text
    && !ContentTaken(s, p.name, p.text, editing)
  }

  /** The checks with the bounds the data model declares for `cooking_time`
      and `amount` enforced as well. */
  predicate Accepted(s: Store, p: RecipePayload, editing: Option<int>)
  {
    && AcceptedAsWritten(s, p, editing)
    && InTimeRange(p.cookingTime)
    && (forall e :: e in p.ingredients ==> InTimeRange(e.amount))
  }

  /** Every submitted ingredient id names an existing ingredient, so that
      `Ingredient.objects.get` succeeds for each. The serializer does not check
      this: the ids are plain integers. */
  predicate AllResolve(s: Store, entries: seq<IngredientEntry>)
  {
    forall e :: e in entries ==> e.id in IngredientIds(s)
  }

  /** One new row per submitted entry, in submission order. */
  function NewRows(id: int, entries: seq<IngredientEntry>): (rows: seq<IngredientRecipe>)
    ensures |rows| == |entries|
    ensures forall i :: 0 <= i < |entries| ==>
      rows[i] == IngredientRecipe(entries[i].id, id, entries[i].amount)
  {
    if |entries| == 0 then []
    else [IngredientRecipe(entries[0].id, id, entries[0].amount)] + NewRows(id, entries[1..])
  }

  // ---------------------------------------------------------------------------
  // Create

  /** What `create` does with the validated data `v`: the recipe row is
      inserted first, under the next key, by the requester, with the submitted
      fields. If every ingredient id resolves, the recipe gets one row per
      entry, in order, and the submitted tag set; otherwise the bare row stays
      behind without tags or rows and the request fails. Nothing else in the
      database changes. */
  ghost predicate CreateEffect(s: Store, author: int, v: RecipePayload, o: Outcome<Store>)
  {
    var made := Recipe(s.nextId, author, v.name, v.image, v.text, v.cookingTime, Elements(v.tags));
    && o.store.(recipes := s.recipes, rows := s.rows, nextId := s.nextId) == s
    && o.store.nextId == s.nextId + 1
    && |o.store.recipes| == |s.recipes| + 1 && o.store.recipes[1..] == s.recipes
    && (forall other :: other != s.nextId ==> RowsOf(o.store.rows, other) == RowsOf(s.rows, other))
    && (AllResolve(s, v.ingredients) ==>
          && o.reply == Created && o.store.recipes[0] == made
          && (Valid(s) ==> RowsOf(o.store.rows, s.nextId) == NewRows(s.nextId, v.ingredients)))
    && (!AllResolve(s, v.ingredients) ==>
          && o.reply == Crashed && o.store.recipes[0] == made.(tags := {})
          && o.store.rows == s.rows)
  }

  /** The writes of `create` once validation has passed: insert the recipe,
      look every ingredient up, bulk-insert the rows, then set the tags. A failed
      lookup raises after the recipe row exists. */
  function WriteNew(s: Store, author: int, v: RecipePayload): (o: Outcome<Store>)
    ensures CreateEffect(s, author, v, o)
  {
    var id := s.nextId;
    var bare := Recipe(id, author, v.name, v.image, v.text, v.cookingTime, {});
    AppendedRows(s, id, v.ingredients);
    if !AllResolve(s, v.ingredients) then
      Outcome(s.(recipes := [bare] + s.recipes, nextId := id + 1), Crashed)
    else
      Outcome(s.(recipes := [bare.(tags := Elements(v.tags))] + s.recipes,
                 rows := s.rows + NewRows(id, v.ingredients),
                 nextId := id + 1), Created)
  }

  /** `RecipeUpdateCreateSerializer.create` behind the serializer's checks
      exactly as written. */
  function CreateAsWritten(s: Store, author: int, p: RecipePayload): (o: Outcome<Store>)
    ensures o.reply in {Created, Invalid, Crashed}
    // a refused request writes nothing; a blank name or text and an amount below 1 are refused
    ensures !AcceptedAsWritten(s, Cleaned(p), None) ==> o == Outcome(s, Invalid)
    ensures AllSpace(p.name) || AllSpace(p.text) ==> o == Outcome(s, Invalid)
    ensures '\0' in p.name || '\0' in p.text ==> o == Outcome(s, Invalid)
    ensures (exists e :: e in p.ingredients && e.amount < MIN_TIME) ==> o == Outcome(s, Invalid)
    ensures AcceptedAsWritten(s, Cleaned(p), None) ==> CreateEffect(s, author, Cleaned(p), o)
  {
    var v := Cleaned(p);
    NullSurvivesCleaning(p);
    if !AcceptedAsWritten(s, v, None) then Outcome(s, Invalid) else WriteNew(s, author, v)
  }

  /** `RecipeUpdateCreateSerializer.create` with the declared bounds of
      `cooking_time` and `amount` enforced as well. */
  function Create(s: Store, author: int, p: RecipePayload): (o: Outcome<Store>)
    ensures o.reply in {Created, Invalid, Crashed}
    ensures !Accepted(s, Cleaned(p), None) ==> o == Outcome(s, Invalid)
    ensures AllSpace(p.name) || AllSpace(p.text) ==> o == Outcome(s, Invalid)
    ensures '\0' in p.name || '\0' in p.text ==> o == Outcome(s, Invalid)
    ensures (exists e :: e in p.ingredients && e.amount < MIN_TIME) ==> o == Outcome(s, Invalid)
    ensures !InTimeRange(p.cookingTime) ==> o == Outcome(s, Invalid)
    ensures (exists e :: e in p.ingredients && !InTimeRange(e.amount)) ==> o == Outcome(s, Invalid)
    ensures Accepted(s, Cleaned(p), None) ==> CreateEffect(s, author, Cleaned(p), o)
  {
    var v := Cleaned(p);
    NullSurvivesCleaning(p);
    if !Accepted(s, v, None) then Outcome(s, Invalid) else WriteNew(s, author, v)
  }

  /** Appending one recipe's new rows: that recipe gains exactly those rows
      (it had none when the database was consistent), every other keeps its own. */
  lemma AppendedRows(s: Store, id: int, entries: seq<IngredientEntry>)
    ensures Valid(s) && id >= s.nextId ==> RowsOf(s.rows + NewRows(id, entries), id) == NewRows(id, entries)
    ensures forall other :: other != id ==> RowsOf(s.rows + NewRows(id, entries), other) == RowsOf(s.rows, other)
  {
    var added := NewRows(id, entries);
    FilterAppend(s.rows, added, (row: IngredientRecipe) => row.recipe == id);
    FilterKeepsAll(added, (row: IngredientRecipe) => row.recipe == id);
    if Valid(s) && id >= s.nextId {
      assert id !in RecipeIds(s);
      FilterDropsAll(s.rows, (row: IngredientRecipe) => row.recipe == id);
    }
    forall other | other != id
      ensures RowsOf(s.rows + added, other) == RowsOf(s.rows, other)
    {
      FilterAppend(s.rows, added, (row: IngredientRecipe) => row.recipe == other);
      FilterDropsAll(added, (row: IngredientRecipe) => row.recipe == other);
    }
  }

  /** Creating a recipe keeps the database consistent, on success and when an
      unknown ingredient id interrupts it. */
  lemma CreateKeepsValid(s: Store, author: int, p: RecipePayload)
    requires Valid(s)
    ensures Valid(Create(s, author, p).store)
  {
    if Accepted(s, Cleaned(p), None) {
      WriteNewKeepsValid(s, author, Cleaned(p));
    }
  }

  lemma WriteNewKeepsValid(s: Store, author: int, v: RecipePayload)
    requires Valid(s) && Accepted(s, v, None)
    ensures Valid(WriteNew(s, author, v).store)
  {
    var s' := WriteNew(s, author, v).store;
    var made := s'.recipes[0];
    assert s'.recipes == [made] + s.recipes;
    assert RecipeIds(s') == RecipeIds(s) + {s.nextId};
    assert s.nextId !in RecipeIds(s);
    forall j | 0 < j < |s'.recipes|
      ensures made.name != s'.recipes[j].name || made.text != s'.recipes[j].text
    {
      assert s'.recipes[j] in s.recipes;
    }
    assert made.tags <= TagIds(s) by {
      forall t | t in made.tags ensures t in TagIds(s) { assert t in v.tags; }
    }
    forall r | r in s'.recipes ensures RecipeOk(s', r) {
      if r != made { assert RecipeOk(s, r); }
    }
    NewRowsOk(s, s', v);
  }

  /** The rows a create adds point at the new recipe and at known
      ingredients, with amounts in range. */
  lemma NewRowsOk(s: Store, s': Store, v: RecipePayload)
    requires Valid(s) && Accepted(s, v, None)
    requires s'.rows == s.rows || (AllResolve(s, v.ingredients) && s'.rows == s.rows + NewRows(s.nextId, v.ingredients))
    requires s'.ingredients == s.ingredients && RecipeIds(s) <= RecipeIds(s') && s.nextId in RecipeIds(s')
    ensures forall row :: row in s'.rows ==> RowOk(s', row)
  {
    forall row | row in s'.rows ensures RowOk(s', row) {
      if row in s.rows {
        assert RowOk(s, row);
      } else {
        var k :| 0 <= k < |NewRows(s.nextId, v.ingredients)| && NewRows(s.nextId, v.ingredients)[k] == row;
        assert v.ingredients[k] in v.ingredients;
      }
    }
  }

  // ---------------------------------------------------------------------------
  // Update

  /** Position of the recipe with primary key `id`. */
  function FindRecipe(rs: seq<Recipe>, id: int): (r: Option<nat>)
    ensures r.Some? ==> r.value < |rs| && rs[r.value].id == id
    ensures r.Some? ==> forall j :: 0 <= j < r.value ==> rs[j].id != id
    ensures r.None? ==> forall x :: x in rs ==> x.id != id
  {
    if |rs| == 0 then None
    else if rs[0].id == id then Some(0)
    else match FindRecipe(rs[1..], id)
      case None => None
      case Some(k) => Some(k + 1)
  }

  /** The recipe with primary key `id`, if any (`get_object_or_404`). */
  function Lookup(s: Store, id: int): (r: Option<Recipe>)
    ensures r.Some? <==> id in RecipeIds(s)
    ensures r.Some? ==> r.value in s.recipes && r.value.id == id
  {
    match FindRecipe(s.recipes, id)
    case None => None
    case Some(i) => Some(s.recipes[i])
  }

  /** Rewriting one recipe in place without changing its key does not move it. */
  lemma FindAfterReplace(rs: seq<Recipe>, i: nat, x: Recipe, id: int)
    requires i < |rs| && x.id == rs[i].id
    ensures FindRecipe(rs[i := x], id) == FindRecipe(rs, id)
  {
    if |rs| > 0 && i > 0 && rs[0].id != id {
      assert rs[i := x][1..] == rs[1..][i - 1 := x];
      FindAfterReplace(rs[1..], i - 1, x, id);
    }
  }

  /** What `update` does to the existing recipe `id` with the validated data
      `v`: its tags are cleared and its rows deleted first. If every
      ingredient id resolves, it then has one row per entry, in order, the
      submitted tag set and the submitted fields, under the same key and
      author; otherwise it stays stripped of its tags and rows and the request
      fails. No other recipe, row or table changes. */
  ghost predicate UpdateEffect(s: Store, id: int, v: RecipePayload, o: Outcome<Store>)
  {
    && Lookup(s, id).Some?
    && var current := Lookup(s, id).value;
    && o.store.(recipes := s.recipes, rows := s.rows) == s
    && |o.store.recipes| == |s.recipes|
    && (forall j :: 0 <= j < |s.recipes| && s.recipes[j].id != id ==> o.store.recipes[j] == s.recipes[j])
    && (forall other :: other != id ==> RowsOf(o.store.rows, other) == RowsOf(s.rows, other))
    && (AllResolve(s, v.ingredients) ==>
          && o.reply == Updated
          && Lookup(o.store, id) == Some(Recipe(id, current.author, v.name, v.image, v.text,
                                                v.cookingTime, Elements(v.tags)))
          && RowsOf(o.store.rows, id) == NewRows(id, v.ingredients))
    && (!AllResolve(s, v.ingredients) ==>
          && o.reply == Crashed
          && Lookup(o.store, id) == Some(current.(tags := {}))
          && RowsOf(o.store.rows, id) == [])
  }

  /** The writes of `update` once validation has passed: clear the tags,
      delete the recipe's rows, look every ingredient up, bulk-insert the new
      rows, set the tags, save the fields. A failed lookup raises after the
      clearing. */
  function UpdateWrites(s: Store, i: nat, v: RecipePayload): (o: Outcome<Store>)
    requires i < |s.recipes| && FindRecipe(s.recipes, s.recipes[i].id) == Some(i)
    ensures UpdateEffect(s, s.recipes[i].id, v, o)
  {
    var current := s.recipes[i];
    var id := current.id;
    var cleared := s.(recipes := s.recipes[i := current.(tags := {})],
                      rows := RowsWithout(s.rows, id));
    var edited := Recipe(id, current.author, v.name, v.image, v.text, v.cookingTime, Elements(v.tags));
    FindAfterReplace(s.recipes, i, current.(tags := {}), id);
    FindAfterReplace(s.recipes, i, edited, id);
    assert forall other :: RowsOf(RowsWithout(s.rows, id), other)
                           == if other == id then [] else RowsOf(s.rows, other) by {
      forall other { RowsOfWithout(s.rows, id, other); }
    }
    ReplacedRows(RowsWithout(s.rows, id), id, v.ingredients);
    if !AllResolve(s, v.ingredients) then Outcome(cleared, Crashed)
    else
      Outcome(cleared.(recipes := s.recipes[i := edited],
                       rows := cleared.rows + NewRows(id, v.ingredients)), Updated)
  }

  /** `RecipeUpdateCreateSerializer.update` on the recipe with key `id`
      (`get_object_or_404`), behind the serializer's checks exactly as
      written. */
  function UpdateAsWritten(s: Store, id: int, p: RecipePayload): (o: Outcome<Store>)
    ensures o.reply in {NotFound, Invalid, Crashed, Updated}
    ensures Lookup(s, id).None? ==> o == Outcome(s, NotFound)
    ensures Lookup(s, id).Some? && !AcceptedAsWritten(s, Cleaned(p), Some(id)) ==> o == Outcome(s, Invalid)
    ensures AllSpace(p.name) || AllSpace(p.text) ==> o.store == s
    ensures '\0' in p.name || '\0' in p.text ==> o.store == s
    ensures (exists e :: e in p.ingredients && e.amount < MIN_TIME) ==> o.store == s
    ensures Lookup(s, id).Some? && AcceptedAsWritten(s, Cleaned(p), Some(id)) ==>
      UpdateEffect(s, id, Cleaned(p), o)
  {
    var v := Cleaned(p);
    NullSurvivesCleaning(p);
    match FindRecipe(s.recipes, id)
    case None => Outcome(s, NotFound)
    case Some(i) =>
      if !AcceptedAsWritten(s, v, Some(id)) then Outcome(s, Invalid) else UpdateWrites(s, i, v)
  }

  /** `RecipeUpdateCreateSerializer.update` with the declared bounds of
      `cooking_time` and `amount` enforced as well. */
  function Update(s: Store, id: int, p: RecipePayload): (o: Outcome<Store>)
    ensures o.reply in {NotFound, Invalid, Crashed, Updated}
    ensures Lookup(s, id).None? ==> o == Outcome(s, NotFound)
    ensures Lookup(s, id).Some? && !Accepted(s, Cleaned(p), Some(id)) ==> o == Outcome(s, Invalid)
    ensures AllSpace(p.name) || AllSpace(p.text) ==> o.store == s
    ensures '\0' in p.name || '\0' in p.text ==> o.store == s
    ensures (exists e :: e in p.ingredients && e.amount < MIN_TIME) ==> o.store == s
    ensures !InTimeRange(p.cookingTime) ==> o.store == s
    ensures (exists e :: e in p.ingredients && !InTimeRange(e.amount)) ==> o.store == s
    ensures Lookup(s, id).Some? && Accepted(s, Cleaned(p), Some(id)) ==>
      UpdateEffect(s, id, Cleaned(p), o)
  {
    var v := Cleaned(p);
    NullSurvivesCleaning(p);
    match FindRecipe(s.recipes, id)
    case None => Outcome(s, NotFound)
    case Some(i) =>
      if !Accepted(s, v, Some(id)) then Outcome(s, Invalid) else UpdateWrites(s, i, v)
  }

  /** Appending a recipe's rows to a table holding none of its rows. */
  lemma ReplacedRows(rows: seq<IngredientRecipe>, id: int, entries: seq<IngredientEntry>)
    requires RowsOf(rows, id) == []
    ensures RowsOf(rows + NewRows(id, entries), id) == NewRows(id, entries)
    ensures forall other :: other != id ==> RowsOf(rows + NewRows(id, entries), other) == RowsOf(rows, other)
  {
    var added := NewRows(id, entries);
    FilterAppend(rows, added, (row: IngredientRecipe) => row.recipe == id);
    FilterKeepsAll(added, (row: IngredientRecipe) => row.recipe == id);
    forall other | other != id
      ensures RowsOf(rows + added, other) == RowsOf(rows, other)
    {
      FilterAppend(rows, added, (row: IngredientRecipe) => row.recipe == other);
      FilterDropsAll(added, (row: IngredientRecipe) => row.recipe == other);
    }
  }

  /** Updating a recipe keeps the database consistent, on success and when an
      unknown ingredient id interrupts it after the clearing. */
  lemma UpdateKeepsValid(s: Store, id: int, p: RecipePayload)
    requires Valid(s)
    ensures Valid(Update(s, id, p).store)
  {
    match FindRecipe(s.recipes, id)
    case None =>
    case Some(i) =>
      if Accepted(s, Cleaned(p), Some(id)) {
        UpdateWritesKeepValid(s, i, Cleaned(p));
      }
  }

  lemma UpdateWritesKeepValid(s: Store, i: nat, p: RecipePayload)
    requires Valid(s) && i < |s.recipes| && FindRecipe(s.recipes, s.recipes[i].id) == Some(i)
    requires Accepted(s, p, Some(s.recipes[i].id))
    ensures Valid(UpdateWrites(s, i, p).store)
  {
    var o := UpdateWrites(s, i, p);
    var s' := o.store;
    var id := s.recipes[i].id;
    var edited := s'.recipes[i];
    assert s'.recipes == s.recipes[i := edited];
    ReplaceKeepsRecipeIds(s, s', i, edited);
    assert s'.tags == s.tags && s'.ingredients == s.ingredients;
    assert edited.tags <= TagIds(s) by {
      forall t | t in edited.tags ensures t in TagIds(s) { assert t in p.tags; }
    }
    forall j | 0 <= j < |s.recipes| && j != i
      ensures s.recipes[j].name != edited.name || s.recipes[j].text != edited.text
    {
      assert s.recipes[j].id != id;
      if o.reply == Updated {
        assert s.recipes[j] in s.recipes;
      }
    }
    ReplaceKeepsRecipesUnique(s.recipes, i, edited);
    forall r | r in s'.recipes ensures RecipeOk(s', r) {
      var j :| 0 <= j < |s'.recipes| && s'.recipes[j] == r;
      assert RecipeOk(s, s.recipes[j]);
    }
    forall row | row in s'.rows ensures RowOk(s', row) {
      if row in RowsWithout(s.rows, id) {
        assert row in s.rows;
      } else {
        var added := NewRows(id, p.ingredients);
        var k :| 0 <= k < |added| && added[k] == row;
        assert p.ingredients[k] in p.ingredients;
      }
    }
  }

  lemma ReplaceKeepsRecipeIds(s: Store, s': Store, i: nat, x: Recipe)
    requires i < |s.recipes| && x.id == s.recipes[i].id && s'.recipes == s.recipes[i := x]
    ensures RecipeIds(s') == RecipeIds(s)
  {
    forall y | y in RecipeIds(s) ensures y in RecipeIds(s') {
      var j :| 0 <= j < |s.recipes| && s.recipes[j].id == y;
      assert s'.recipes[j].id == y;
    }
    forall y | y in RecipeIds(s') ensures y in RecipeIds(s) {
      var j :| 0 <= j < |s'.recipes| && s'.recipes[j].id == y;
      assert s.recipes[j].id == y;
    }
  }

  lemma ReplaceKeepsRecipesUnique(rs: seq<Recipe>, i: nat, x: Recipe)
    requires RecipesUnique(rs) && i < |rs| && x.id == rs[i].id
    requires forall j :: 0 <= j < |rs| && j != i ==> rs[j].name != x.name || rs[j].text != x.text
    ensures RecipesUnique(rs[i := x])
  {
  }

  // ---------------------------------------------------------------------------
  // Out-of-range values the serializer lets through

  /** An empty database with one user. */
  function EmptyStore(): Store
  {
    Store({1}, [], [Ingredient(1, "Salt", "g")], [], [], [], [], [], 1)
  }

  /** A payload whose name and text neither start nor end with whitespace is
      already clean. */
  lemma AlreadyClean(p: RecipePayload)
    requires |p.name| > 0 && !IsSpace(p.name[0]) && !IsSpace(p.name[|p.name| - 1])
    requires |p.text| > 0 && !IsSpace(p.text[0]) && !IsSpace(p.text[|p.text| - 1])
    ensures Cleaned(p) == p
  {
    StripPadded([], p.name, []);
    assert [] + p.name + [] == p.name;
    StripPadded([], p.text, []);
    assert [] + p.text + [] == p.text;
  }

  /** As written, a recipe with `cooking_time` 0 is accepted and stored, and the
      database no longer satisfies the declared bound; with the bound enforced
      the same request is refused and the database stays consistent. */
  lemma CookingTimeZeroIsStored()
    ensures var s := EmptyStore();
            var p := RecipePayload([], [], "Soup", "soup.png", "Boil.", 0);
            && Valid(s)
            && CreateAsWritten(s, 1, p).reply == Created
            && !Valid(CreateAsWritten(s, 1, p).store)
            && Create(s, 1, p) == Outcome(s, Invalid)
  {
    var s := EmptyStore();
    var p := RecipePayload([], [], "Soup", "soup.png", "Boil.", 0);
    AlreadyClean(p);
    var s' := CreateAsWritten(s, 1, p).store;
    assert s'.recipes[0] in s'.recipes;
  }

  /** As written, `cooking_time` 32001 is stored too. */
  lemma CookingTimeAboveMaxIsStored()
    ensures var s := EmptyStore();
            var p := RecipePayload([], [], "Stew", "stew.png", "Simmer.", MAX_TIME + 1);
            && CreateAsWritten(s, 1, p).reply == Created
            && !Valid(CreateAsWritten(s, 1, p).store)
            && Create(s, 1, p) == Outcome(s, Invalid)
  {
    var s := EmptyStore();
    var p := RecipePayload([], [], "Stew", "stew.png", "Simmer.", MAX_TIME + 1);
    AlreadyClean(p);
    var s' := CreateAsWritten(s, 1, p).store;
    assert s'.recipes[0] in s'.recipes;
  }

  /** As written, an ingredient amount of 32001 is stored: the amount field
      has a lower bound only. */
  lemma AmountAboveMaxIsStored()
    ensures var s := EmptyStore();
            var p := RecipePayload([], [IngredientEntry(1, MAX_TIME + 1)], "Brine", "brine.png", "Dissolve.", 10);
            && CreateAsWritten(s, 1, p).reply == Created
            && !Valid(CreateAsWritten(s, 1, p).store)
            && Create(s, 1, p) == Outcome(s, Invalid)
  {
    var s := EmptyStore();
    var p := RecipePayload([], [IngredientEntry(1, MAX_TIME + 1)], "Brine", "brine.png", "Dissolve.", 10);
    AlreadyClean(p);
    assert AllResolve(s, p.ingredients) by {
      assert IngredientIds(s) == {1};
    }
    assert !Accepted(s, p, None) by {
      assert p.ingredients[0] in p.ingredients;
    }
    var s' := CreateAsWritten(s, 1, p).store;
    assert s'.rows[0] in s'.rows;
  }

  /** The boundary values of `cooking_time`: 1 and 32000 pass the checks,
      0 and 32001 do not. */
  lemma CookingTimeBoundaries(s: Store, p: RecipePayload)
    requires AcceptedAsWritten(s, p, None)
    requires forall e :: e in p.ingredients ==> InTimeRange(e.amount)
    ensures Accepted(s, p.(cookingTime := MIN_TIME), None)
    ensures Accepted(s, p.(cookingTime := MAX_TIME), None)
    ensures !Accepted(s, p.(cookingTime := MIN_TIME - 1), None)
    ensures !Accepted(s, p.(cookingTime := MAX_TIME + 1), None)
  {
  }

  // ---------------------------------------------------------------------------
  // Inline images

  const DATA_IMAGE := "data:image"
  const BASE64_MARKER := ";base64,"

  /** What `Base64ImageField.to_internal_value` hands on to the image field:
      the input itself, or the decoded file named after the format's extension.
      The decoding of `payload` is not modelled. */
  datatype ImageValue =
    | PassThrough(data: string)
    | Decoded(format: string, payload: string, ext: string, fileName: string)

  /** A string starting with `data:image` is split at `;base64,` into exactly
      two parts (any other count fails the tuple unpacking), and the extension
      is the text after the last `/` of the first part. Anything else passes
      through unchanged. `None` stands for the unpacking error. */
  function ImageToInternal(data: string): (r: Option<ImageValue>)
    ensures !StartsWith(data, DATA_IMAGE) ==> r == Some(PassThrough(data))
    // with the prefix: no marker, or two or more, fail; exactly one decodes
    ensures StartsWith(data, DATA_IMAGE) ==>
      (r.Some? <==> Contains(data, BASE64_MARKER) && !OccursTwice(data, BASE64_MARKER))
    ensures StartsWith(data, DATA_IMAGE) && r.Some? ==> r.value.Decoded?
    ensures r.Some? && r.value.Decoded? ==>
      var v := r.value;
      && data == v.format + BASE64_MARKER + v.payload
      && !Contains(v.format, BASE64_MARKER) && !Contains(v.payload, BASE64_MARKER)
      && !Contains(v.ext, "/")
      && TailAfterSeparator(v.format, v.ext, "/")
      && v.fileName == "temp." + v.ext
  {
    if !StartsWith(data, DATA_IMAGE) then Some(PassThrough(data))
    else
      SplitInTwo(data, BASE64_MARKER);
      var parts := Split(data, BASE64_MARKER);
      if |parts| != 2 then None
      else
        var format := parts[0];
        var pieces := Split(format, "/");
        var ext := pieces[|pieces| - 1];
        SplitLastIsTail(format, "/");
        assert Join(parts[1..], BASE64_MARKER) == parts[1];
        Some(Decoded(format, parts[1], ext, "temp." + ext))
  }

  /** A `data:image` string with a single `;base64,` decodes into the text
      before the marker as the format and the text after it as the payload. */
  lemma ImageSplitsAtMarker(f: string, q: string)
    requires StartsWith(f + BASE64_MARKER + q, DATA_IMAGE)
    requires !Contains(f, BASE64_MARKER) && !Contains(q, BASE64_MARKER)
    ensures var r := ImageToInternal(f + BASE64_MARKER + q);
      r.Some? && r.value.Decoded? && r.value.format == f && r.value.payload == q
  {
    SplitAtOnly(f, BASE64_MARKER, q);
  }

  // ---------------------------------------------------------------------------
  // Per-requester flags of the read representation

  /** `RecipesSerializer.get_is_favorited` */
  function IsFavorited(s: Store, who: Requester, recipe: int): (b: bool)
    ensures who.Anonymous? ==> !b
    ensures who.Member? ==> (b <==> Pair(who.id, recipe) in s.favorites)
  {
    match who
    case Anonymous => false
    case Member(u) => Pair(u, recipe) in s.favorites
  }

  /** `RecipesSerializer.get_is_in_shopping_cart` */
  function IsInCart(s: Store, who: Requester, recipe: int): (b: bool)
    ensures who.Anonymous? ==> !b
    ensures who.Member? ==> (b <==> Pair(who.id, recipe) in s.carts)
  {
    match who
    case Anonymous => false
    case Member(u) => Pair(u, recipe) in s.carts
  }

  /** `CustomUserSerializer.get_is_subscribed`: false without a request or for
      an anonymous one. */
  function IsSubscribed(s: Store, request: Option<Requester>, author: int): (b: bool)
    ensures request.None? || request.value.Anonymous? ==> !b
    ensures request.Some? && request.value.Member? ==>
      (b <==> Pair(request.value.id, author) in s.subscriptions)
  {
    match request
    case None => false
    case Some(Anonymous) => false
    case Some(Member(u)) => Pair(u, author) in s.subscriptions
  }

  // ---------------------------------------------------------------------------
  // Recipes embedded in a subscription entry

  /** The `recipes_limit` query parameter: absent (or no request), present but
      empty, a parsed integer, or text `int()` refuses. */
  datatype LimitParam = NoLimit | Blank | Limit(n: int) | NotANumber

  /** `obj.recipes.all()`: the author's recipes, newest first. */
  function AuthorRecipes(s: Store, author: int): seq<Recipe>
  {
    Filter(s.recipes, (r: Recipe) => r.author == author)
  }

  /** `SubscribeSerializer.get_recipes`: all of the author's recipes, or the
      first `n` of them. A negative slice bound is refused by the query set and
      a non-number by `int()`; `None` stands for both. */
  function EmbeddedRecipes(s: Store, author: int, limit: LimitParam): (r: Option<seq<Recipe>>)
    ensures limit.NoLimit? || limit.Blank? ==> r == Some(AuthorRecipes(s, author))
    ensures limit.Limit? && limit.n >= 0 ==>
      && r.Some?
      && r.value <= AuthorRecipes(s, author)
      && |r.value| == if limit.n < |AuthorRecipes(s, author)| then limit.n else |AuthorRecipes(s, author)|
    ensures (limit.Limit? && limit.n < 0) || limit.NotANumber? ==> r.None?
    ensures r.Some? ==> forall x :: x in r.value ==> x in s.recipes && x.author == author
  {
    match limit
    case NoLimit => Some(AuthorRecipes(s, author))
    case Blank => Some(AuthorRecipes(s, author))
    case NotANumber => None
    case Limit(n) =>
      if n < 0 then None
      else
        var all := AuthorRecipes(s, author);
        var first := Take(all, n);
        assert forall x :: x in first ==> x in all;
        Some(first)
  }

  /** `SubscribeSerializer.get_recipes_count`: a count over the recipe table,
      independent of any limit. */
  function RecipesCount(s: Store, author: int): (n: nat)
    ensures n == |AuthorRecipes(s, author)|
  {
    CountAuthored(s.recipes, author)
  }

  function CountAuthored(rs: seq<Recipe>, author: int): (n: nat)
    ensures n == |Filter(rs, (r: Recipe) => r.author == author)|
  {
    if |rs| == 0 then 0
    else (if rs[0].author == author then 1 else 0) + CountAuthored(rs[1..], author)
  }

  /** The embedded list never holds more than `recipes_count` recipes, and holds
      all of them exactly when the limit does not cut. */
  lemma EmbeddedWithinCount(s: Store, author: int, limit: LimitParam)
    requires EmbeddedRecipes(s, author, limit).Some?
    ensures |EmbeddedRecipes(s, author, limit).value| <= RecipesCount(s, author)
    ensures (limit.NoLimit? || limit.Blank? || (limit.Limit? && limit.n >= RecipesCount(s, author)))
            <==> |EmbeddedRecipes(s, author, limit).value| == RecipesCount(s, author)
  {
  }
}

=== FILE: text.dfy ===
/** The handful of Python string operations the core relies on:
    `startswith`, `split` on a non-empty separator, lower-casing for
    case-insensitive lookups, and `str()` of an integer. */
module Text {
  import opened Basics

  predicate StartsWith(s: string, prefix: string)
  {
    |prefix| <= |s| && s[..|prefix|] == prefix
  }

  predicate EndsWith(s: string, suffix: string)
  {
    |suffix| <= |s| && s[|s| - |suffix|..] == suffix
  }

  /** `sep` occurs in `s` starting at index `i`. */
  predicate OccursAt(s: string, sep: string, i: int)
  {
    0 <= i && i + |sep| <= |s| && s[i..i + |sep|] == sep
  }

  predicate Contains(s: string, sep: string)
  {
    exists i :: 0 <= i <= |s| - |sep| && OccursAt(s, sep, i)
  }

  /** The first index at or after `from` where `sep` occurs. */
  function FindFrom(s: string, sep: string, from: nat): (r: Option<nat>)
    requires |sep| > 0
    ensures r.Some? ==> from <= r.value && OccursAt(s, sep, r.value)
    ensures r.Some? ==> forall i :: from <= i < r.value ==> !OccursAt(s, sep, i)
    ensures r.None? ==> forall i :: from <= i ==> !OccursAt(s, sep, i)
    decreases |s| - from
  {
    if from + |sep| > |s| then None
    else if s[from..from + |sep|] == sep then Some(from)
    else FindFrom(s, sep, from + 1)
  }

  /** Python's `s.split(sep)`: cut at every occurrence of `sep`, scanning from
      the left and never re-using the characters of an occurrence. */
  function Split(s: string, sep: string): (parts: seq<string>)
    requires |sep| > 0
    ensures |parts| >= 1
    ensures Join(parts, sep) == s
    ensures forall k :: 0 <= k < |parts| ==> !Contains(parts[k], sep)
    decreases |s|
  {
    match FindFrom(s, sep, 0)
    case None =>
      assert !Contains(s, sep);
      [s]
    case Some(i) =>
      FirstOccurrenceSplits(s, sep, i);
      [s[..i]] + Split(s[i + |sep|..], sep)
  }

  /** Cutting at the first occurrence: the text before it holds no separator,
      and the string is that text, the separator and the rest. */
  lemma FirstOccurrenceSplits(s: string, sep: string, i: nat)
    requires |sep| > 0 && OccursAt(s, sep, i)
    requires forall j :: 0 <= j < i ==> !OccursAt(s, sep, j)
    ensures !Contains(s[..i], sep)
    ensures s == s[..i] + sep + s[i + |sep|..]
  {
    var head := s[..i];
    forall j | 0 <= j <= |head| - |sep|
      ensures !OccursAt(head, sep, j)
    {
      assert !OccursAt(s, sep, j);
      assert head[j..j + |sep|] == s[j..j + |sep|];
    }
    assert s == s[..i] + s[i..i + |sep|] + s[i + |sep|..];
  }

  /** A string without the separator splits into itself alone. */
  lemma SplitWithoutSeparator(s: string, sep: string)
    requires |sep| > 0 && !Contains(s, sep)
    ensures Split(s, sep) == [s]
  {
    match FindFrom(s, sep, 0)
    case None =>
    case Some(i) =>
      assert false;
  }

  /** No character of `sep` after its first equals the first, so two
      occurrences of `sep` never overlap. */
  predicate HeadUnique(sep: string)
  {
    |sep| > 0 && forall k :: 0 < k < |sep| ==> sep[k] != sep[0]
  }

  /** `sep` occurs at two different positions of `s`. */
  predicate OccursTwice(s: string, sep: string)
  {
    exists i, j :: 0 <= i < j <= |s| - |sep| && OccursAt(s, sep, i) && OccursAt(s, sep, j)
  }

  /** In `f + sep + q`, with neither side holding the separator, the only
      occurrence of a non-overlapping separator is the middle one. */
  lemma OnlyOccurrence(f: string, sep: string, q: string, j: int)
    requires HeadUnique(sep) && !Contains(f, sep) && !Contains(q, sep)
    requires OccursAt(f + sep + q, sep, j)
    ensures j == |f|
  {
    var s := f + sep + q;
    assert s[j] == sep[0] by { assert s[j..j + |sep|][0] == s[j]; }
    assert s[|f|] == sep[0];
    // an occurrence starting inside the middle one
    assert |f| <= j < |f| + |sep| ==> s[j] == sep[j - |f|];
    if j + |sep| <= |f| {
      assert s[j..j + |sep|] == f[j..j + |sep|];
      assert OccursAt(f, sep, j);
    } else if j >= |f| + |sep| {
      var m := j - |f| - |sep|;
      assert s[j..j + |sep|] == q[m..m + |sep|];
      assert OccursAt(q, sep, m);
    }
  }

  /** Splitting at the only occurrence of a non-overlapping separator gives
      the text on either side of it. */
  lemma SplitAtOnly(f: string, sep: string, q: string)
    requires HeadUnique(sep) && !Contains(f, sep) && !Contains(q, sep)
    ensures Split(f + sep + q, sep) == [f, q]
  {
    var s := f + sep + q;
    assert OccursAt(s, sep, |f|) by {
      assert s[|f|..|f| + |sep|] == sep;
    }
    match FindFrom(s, sep, 0)
    case None =>
      assert false;
    case Some(i) =>
      OnlyOccurrence(f, sep, q, i);
      assert s[..i] == f;
      assert s[i + |sep|..] == q;
      SplitWithoutSeparator(q, sep);
  }

  /** `split` yields exactly two parts exactly when a non-overlapping
      separator occurs once. */
  lemma SplitInTwo(s: string, sep: string)
    requires HeadUnique(sep)
    ensures |Split(s, sep)| == 2 <==> Contains(s, sep) && !OccursTwice(s, sep)
  {
    var parts := Split(s, sep);
    if |parts| == 2 {
      TwoPartsOccursOnce(s, sep);
    } else if |parts| == 1 {
      assert s == parts[0];
    } else {
      MorePartsOccursTwice(s, sep);
    }
  }

  lemma TwoPartsOccursOnce(s: string, sep: string)
    requires HeadUnique(sep) && |Split(s, sep)| == 2
    ensures Contains(s, sep) && !OccursTwice(s, sep)
  {
    var parts := Split(s, sep);
    assert Join(parts[1..], sep) == parts[1];
    assert s == parts[0] + sep + parts[1];
    assert OccursAt(s, sep, |parts[0]|) by {
      assert s[|parts[0]|..|parts[0]| + |sep|] == sep;
    }
    forall i, j | 0 <= i < j <= |s| - |sep| && OccursAt(s, sep, i)
      ensures !OccursAt(s, sep, j)
    {
      OnlyOccurrence(parts[0], sep, parts[1], i);
      if OccursAt(s, sep, j) {
        OnlyOccurrence(parts[0], sep, parts[1], j);
      }
    }
  }

  lemma MorePartsOccursTwice(s: string, sep: string)
    requires HeadUnique(sep) && |Split(s, sep)| > 2
    ensures OccursTwice(s, sep)
  {
    var parts := Split(s, sep);
    assert parts[1..][1..] == parts[2..];
    assert s == parts[0] + sep + (parts[1] + sep + Join(parts[2..], sep));
    SeparatorTwice(parts[0], parts[1], Join(parts[2..], sep), sep);
  }

  lemma SeparatorTwice(a: string, b: string, c: string, sep: string)
    requires |sep| > 0
    ensures OccursTwice(a + sep + (b + sep + c), sep)
  {
    var s := a + sep + (b + sep + c);
    var i := |a|;
    var j := |a| + |sep| + |b|;
    assert s[i..i + |sep|] == sep;
    assert s[j..j + |sep|] == sep;
    assert OccursAt(s, sep, i) && OccursAt(s, sep, j);
  }

  /** `sep.join(parts)` */
  function Join(parts: seq<string>, sep: string): string
  {
    if |parts| == 0 then ""
    else if |parts| == 1 then parts[0]
    else parts[0] + sep + Join(parts[1..], sep)
  }

  /** The last piece of a split is the tail of the string after the last
      separator: it is a suffix, and what precedes it is empty or ends with the
      separator. This is what `format.split('/')[-1]` picks out. */
  lemma {:induction false} SplitLastIsTail(s: string, sep: string)
    requires |sep| > 0
    ensures var parts := Split(s, sep);
            TailAfterSeparator(s, parts[|parts| - 1], sep)
    decreases |s|
  {
    match FindFrom(s, sep, 0)
    case None =>
    case Some(i) =>
      var rest := s[i + |sep|..];
      var tail := Split(rest, sep);
      SplitLastIsTail(rest, sep);
      assert Split(s, sep) == [s[..i]] + tail;
      assert s == s[..i] + sep + rest by {
        assert s[i..i + |sep|] == sep;
        assert s == s[..i] + s[i..i + |sep|] + s[i + |sep|..];
      }
      TailAfterSeparatorExtends(s[..i], sep, rest, tail[|tail| - 1]);
  }

  /** `last` is a suffix of `s`, and what precedes it is empty or ends with `sep`. */
  predicate TailAfterSeparator(s: string, last: string, sep: string)
  {
    && EndsWith(s, last)
    && (|last| == |s| || EndsWith(s[..|s| - |last|], sep))
  }

  lemma TailAfterSeparatorExtends(head: string, sep: string, rest: string, last: string)
    requires TailAfterSeparator(rest, last, sep)
    ensures TailAfterSeparator(head + sep + rest, last, sep)
  {
    var s := head + sep + rest;
    var k := |s| - |last|;
    assert s[k..] == rest[|rest| - |last|..];
    if |last| == |rest| {
      assert s[..k] == head + sep;
      assert s[..k][k - |sep|..] == sep;
    } else {
      var pre := rest[..|rest| - |last|];
      assert s[..k] == head + sep + pre;
      assert s[..k][k - |sep|..] == pre[|pre| - |sep|..];
    }
  }

  /** Apply a per-character case mapping to a whole string. */
  function Fold(s: string, fold: char -> char): (r: string)
    ensures |r| == |s|
    ensures forall i :: 0 <= i < |s| ==> r[i] == fold(s[i])
  {
    if |s| == 0 then "" else [fold(s[0])] + Fold(s[1..], fold)
  }

  /** A simple lower-casing: ASCII `A`-`Z`, Cyrillic `А`-`Я` and `Ё`.
      Full Unicode case folding is outside this model. */
  function SimpleLower(c: char): char
  {
    if 'A' <= c <= 'Z' then (c as int + 32) as char
    else if 'А' <= c <= 'Я' then (c as int + 32) as char
    else if c == 'Ё' then 'ё'
    else c
  }

  /** Folding a concatenation folds each part. */
  lemma FoldAppend(a: string, b: string, fold: char -> char)
    ensures Fold(a + b, fold) == Fold(a, fold) + Fold(b, fold)
  {
    var l := Fold(a + b, fold);
    var r := Fold(a, fold) + Fold(b, fold);
    assert forall i :: 0 <= i < |l| ==> l[i] == r[i] by {
      forall i | 0 <= i < |l| ensures l[i] == r[i] {
        if i < |a| {
          assert (a + b)[i] == a[i];
        } else {
          assert (a + b)[i] == b[i - |a|];
        }
      }
    }
  }

  /** A string that starts with `a + b` starts with `a`. */
  lemma StartsWithShorter(s: string, a: string, b: string)
    requires StartsWith(s, a + b)
    ensures StartsWith(s, a)
  {
    assert s[..|a|] == (a + b)[..|a|];
  }

  predicate IsDigit(c: char)
  {
    '0' <= c <= '9'
  }

  function DigitChar(d: nat): (c: char)
    requires d < 10
    ensures IsDigit(c) && c as int - '0' as int == d
  {
    ('0' as int + d) as char
  }

  /** Decimal digits of a natural number, as Python's `str()` writes them. */
  function NatToString(n: nat): (r: string)
    ensures |r| >= 1
    ensures forall i :: 0 <= i < |r| ==> IsDigit(r[i])
    ensures |r| > 1 ==> r[0] != '0'
    decreases n
  {
    if n < 10 then [DigitChar(n)] else NatToString(n / 10) + [DigitChar(n % 10)]
  }

  /** The value of a string of decimal digits. */
  function DigitsValue(s: string): nat
    requires forall i :: 0 <= i < |s| ==> IsDigit(s[i])
  {
    if |s| == 0 then 0
    else
      assert IsDigit(s[|s| - 1]);
      DigitsValue(s[..|s| - 1]) * 10 + (s[|s| - 1] as int - '0' as int)
  }

  /** Reading the digits back gives the number: the formatting loses nothing. */
  lemma {:induction false} NatToStringRoundTrip(n: nat)
    ensures DigitsValue(NatToString(n)) == n
    decreases n
  {
    if n >= 10 {
      NatToStringRoundTrip(n / 10);
      var s := NatToString(n);
      assert s[..|s| - 1] == NatToString(n / 10);
    }
  }

  /** Python's `str(i)` for any integer: the decimal digits of its magnitude
      without leading zeros, after a minus sign when it is negative. */
  function IntToString(i: int): (r: string)
    ensures i >= 0 ==>
      && |r| >= 1
      && (forall k :: 0 <= k < |r| ==> IsDigit(r[k]))
      && DigitsValue(r) == i
      && (|r| > 1 ==> r[0] != '0')
    ensures i < 0 ==>
      && |r| >= 2 && r[0] == '-'
      && (forall k :: 1 <= k < |r| ==> IsDigit(r[k]))
      && DigitsValue(r[1..]) == -i
      && r[1] != '0'
  {
    if i < 0 then
      var digits := NatToString(-i);
      NatToStringRoundTrip(-i);
      assert ("-" + digits)[1..] == digits;
      "-" + digits
    else
      NatToStringRoundTrip(i);
      NatToString(i)
  }

  // ---------------------------------------------------------------------------
  // Whitespace

  /** Python's `str.isspace` for one character: the characters `str.strip()`
      removes. */
  predicate IsSpace(c: char)
  {
    || '\t' <= c <= '\r'
    || '\U{1C}' <= c <= ' '
    || c == '\U{85}' || c == '\U{A0}' || c == '\U{1680}'
    || '\U{2000}' <= c <= '\U{200A}'
    || c == '\U{2028}' || c == '\U{2029}' || c == '\U{202F}' || c == '\U{205F}' || c == '\U{3000}'
  }

  predicate AllSpace(s: string)
  {
    forall i :: 0 <= i < |s| ==> IsSpace(s[i])
  }

  /** The number of whitespace characters `s` starts with. */
  function LeadingSpaces(s: string): (n: nat)
    ensures n <= |s|
    ensures AllSpace(s[..n])
    ensures n < |s| ==> !IsSpace(s[n])
  {
    if |s| == 0 || !IsSpace(s[0]) then 0
    else
      var m := LeadingSpaces(s[1..]);
      var n := 1 + m;
      assert s[..n] == [s[0]] + s[1..][..m];
      assert n < |s| ==> s[n] == s[1..][m];
      n
  }

  /** The number of whitespace characters `s` ends with. */
  function TrailingSpaces(s: string): (n: nat)
    ensures n <= |s|
    ensures AllSpace(s[|s| - n..])
    ensures n < |s| ==> !IsSpace(s[|s| - n - 1])
  {
    if |s| == 0 || !IsSpace(s[|s| - 1]) then 0
    else
      var front := s[..|s| - 1];
      var m := TrailingSpaces(front);
      var n := 1 + m;
      var tail := front[|front| - m..];
      var suffix := s[|s| - n..];
      assert suffix == tail + [s[|s| - 1]];
      forall i | 0 <= i < n ensures IsSpace(suffix[i]) {
        if i < m { assert suffix[i] == tail[i]; }
      }
      assert n < |s| ==> s[|s| - n - 1] == front[|front| - m - 1];
      n
  }

  /** Python's `s.strip()`: `s` without its leading and trailing whitespace. */
  function Strip(s: string): (r: string)
    ensures |r| <= |s|
    ensures |r| == 0 <==> AllSpace(s)
    ensures |r| > 0 ==> !IsSpace(r[0]) && !IsSpace(r[|r| - 1])
    ensures var a := LeadingSpaces(s);
      && a + |r| <= |s| && r == s[a..a + |r|]
      && AllSpace(s[..a]) && AllSpace(s[a + |r|..])
  {
    var a := LeadingSpaces(s);
    if a == |s| then
      assert s[..a] == s;
      []
    else
      var b := |s| - TrailingSpaces(s);
      assert !AllSpace(s) by { assert !IsSpace(s[a]); }
      s[a..b]
  }

  /** Stripping is determined by the text between the whitespace: padding a
      string whose ends are not whitespace with whitespace on both sides and
      stripping gives it back. */
  lemma StripPadded(left: string, t: string, right: string)
    requires AllSpace(left) && AllSpace(right)
    requires |t| > 0 ==> !IsSpace(t[0]) && !IsSpace(t[|t| - 1])
    ensures Strip(left + t + right) == t
  {
    var s := left + t + right;
    var r := Strip(s);
    var a := LeadingSpaces(s);
    if |t| == 0 {
      assert s == left + right;
      assert AllSpace(s) by {
        forall i | 0 <= i < |s| ensures IsSpace(s[i]) {
          if i < |left| { assert s[i] == left[i]; } else { assert s[i] == right[i - |left|]; }
        }
      }
    } else {
      assert s[|left|] == t[0];
      var e := |left| + |t| - 1;
      assert s[e] == t[|t| - 1];
      assert s[|left|..|left| + |t|] == t;
    }
  }

  /** Stripping removes whitespace only: every other character stays. */
  lemma StripKeeps(s: string, c: char)
    requires c in s && !IsSpace(c)
    ensures c in Strip(s)
  {
    var r := Strip(s);
    var a := LeadingSpaces(s);
    var i :| 0 <= i < |s| && s[i] == c;
    assert r[i - a] == c;
  }

  /** Appending text after a string that is not all whitespace keeps its
      stripped form as a prefix of the longer string's stripped form. */
  lemma StripPrefixOfLonger(q: string, more: string)
    requires |Strip(q)| > 0
    ensures Strip(q) <= Strip(q + more)
  {
    var s := q + more;
    var r := Strip(q);
    var a := LeadingSpaces(q);
    assert a < |q| && q[a] == r[0];
    assert s[..a] == q[..a];
    forall i | 0 <= i < a ensures IsSpace(s[i]) {
      assert s[i] == q[..a][i];
    }
    var b := LeadingSpaces(s);
    forall i | 0 <= i < b ensures IsSpace(s[i]) {
      assert s[i] == s[..b][i];
    }
    assert s[a] == q[a] && !IsSpace(s[a]);
    assert b < |s| ==> !IsSpace(s[b]);
    assert b == a;
    var t := Strip(s);
    forall i | a + |t| <= i < |s| ensures IsSpace(s[i]) {
      assert s[i] == s[a + |t|..][i - a - |t|];
    }
    var j := a + |r| - 1;
    assert s[j] == r[|r| - 1];
    assert j < a + |t|;
    assert t[..|r|] == r;
  }

  /** Stripping twice is stripping once. */
  lemma StripIdempotent(s: string)
    ensures Strip(Strip(s)) == Strip(s)
  {
    var r := Strip(s);
    StripPadded([], r, []);
    assert [] + r + [] == r;
  }
}

=== FILE: toggles.dfy ===
/** The three actor-to-target relations (favorites, shopping cart,
    subscriptions) share one shape: a table of (actor, target) rows with a
    uniqueness constraint, written through Django's `get_or_create` and then
    either kept (POST) or deleted (DELETE). This module models that shape once;
    the views instantiate it with the branch each view takes on a repeated POST. */
module Toggles {
  import opened Basics

  datatype Pair = Pair(actor: int, target: int)

  /** The rows of one relation table, in primary-key order. */
  type Relation = seq<Pair>

  /** The `UniqueConstraint(fields=[user, recipe])` of the table. */
  predicate Unique(rel: Relation)
  {
    forall i, j :: 0 <= i < j < |rel| ==> rel[i] != rel[j]
  }

  datatype Method = Post | Delete

  /** What a POST does when the pair already exists. */
  datatype RepeatPolicy =
    | FallThrough  // favorite, shopping cart: no branch matches, the view returns nothing
    | Reject       // subscribe: raises a validation error

  /** `get_or_create`: the relation afterwards and whether a row was created. */
  function GetOrCreate(rel: Relation, p: Pair): (r: (Relation, bool))
    ensures p in r.0
    ensures r.1 <==> p !in rel
    ensures !r.1 ==> r.0 == rel
    ensures r.1 ==> r.0 == rel + [p]
    ensures Unique(rel) ==> Unique(r.0)
  {
    if p in rel then (rel, false) else (rel + [p], true)
  }

  function NotPair(p: Pair): Pair -> bool
  {
    (q: Pair) => q != p
  }

  /** `obj.delete()`: drop the row for `p`. */
  function Remove(rel: Relation, p: Pair): (r: Relation)
    ensures p !in r
    ensures forall q :: q in r <==> q in rel && q != p
    ensures Unique(rel) ==> Unique(r)
  {
    FilterKeepsUnique(rel, NotPair(p));
    Filter(rel, NotPair(p))
  }

  lemma {:induction false} FilterKeepsUnique(rel: Relation, keep: Pair -> bool)
    ensures Unique(rel) ==> Unique(Filter(rel, keep))
  {
    if |rel| > 0 && Unique(rel) {
      assert Unique(rel[1..]);
      FilterKeepsUnique(rel[1..], keep);
      assert rel[0] !in rel[1..];
    }
  }

  /** One request on a relation: `get_or_create` the pair, then branch on the
      method and on whether a row was created, as the view does. */
  function Toggle(rel: Relation, p: Pair, m: Method, policy: RepeatPolicy): (o: (Relation, Reply))
    // DELETE leaves the pair absent, whether or not it was there, and no other pair changes
    ensures m == Delete ==> o.1 == Removed && p !in o.0
    ensures m == Delete ==> forall q :: q != p ==> (q in o.0 <==> q in rel)
    // POST of a new pair adds exactly that pair at the end of the table
    ensures m == Post && p !in rel ==> o.1 == Created && o.0 == rel + [p]
    // POST of an existing pair changes nothing
    ensures m == Post && p in rel ==> o.0 == rel
    ensures m == Post && p in rel ==> o.1 == (if policy == Reject then Invalid else NoResponse)
    ensures Unique(rel) ==> Unique(o.0)
  {
    var (rel1, created) := GetOrCreate(rel, p);
    if m == Post && created then (rel1, Created)
    else if m == Post && policy == Reject then (rel1, Invalid)
    else if m == Delete then (Remove(rel1, p), Removed)
    else (rel1, NoResponse)
  }

  /** DELETE of an absent pair creates the row and deletes it again: the net
      effect is no change at all, not even in the order of the other rows. */
  lemma DeleteAbsentIsNoOp(rel: Relation, p: Pair, policy: RepeatPolicy)
    requires p !in rel
    ensures Toggle(rel, p, Delete, policy).0 == rel
  {
    FilterAppend(rel, [p], NotPair(p));
    FilterKeepsAll(rel, NotPair(p));
    assert Filter([p], NotPair(p)) == [];
  }

  /** DELETE of a present pair removes exactly one row. */
  lemma DeletePresentShrinks(rel: Relation, p: Pair, policy: RepeatPolicy)
    requires Unique(rel) && p in rel
    ensures |Toggle(rel, p, Delete, policy).0| == |rel| - 1
  {
    RemoveOneCount(rel, p);
  }

  lemma {:induction false} RemoveOneCount(rel: Relation, p: Pair)
    requires Unique(rel) && p in rel
    ensures |Filter(rel, NotPair(p))| == |rel| - 1
  {
    assert Unique(rel[1..]);
    if rel[0] == p {
      assert p !in rel[1..];
      FilterKeepsAll(rel[1..], NotPair(p));
    } else {
      assert p in rel[1..];
      RemoveOneCount(rel[1..], p);
    }
  }

  /** POST then DELETE of a fresh pair restores the relation exactly. */
  lemma PostThenDeleteRestores(rel: Relation, p: Pair, policy: RepeatPolicy)
    requires p !in rel
    ensures Toggle(Toggle(rel, p, Post, policy).0, p, Delete, policy).0 == rel
  {
    var after := Toggle(rel, p, Post, policy).0;
    assert after == rel + [p];
    FilterAppend(rel, [p], NotPair(p));
    FilterKeepsAll(rel, NotPair(p));
    assert Filter([p], NotPair(p)) == [];
  }

  /** A repeated POST is harmless for the state: POST twice equals POST once. */
  lemma PostIsIdempotent(rel: Relation, p: Pair, policy: RepeatPolicy)
    ensures var once := Toggle(rel, p, Post, policy).0;
            Toggle(once, p, Post, policy).0 == once
  {
  }
}

=== FILE: views.dfy ===
/** The view actions: favorite, shopping cart and subscribe (POST adds,
    DELETE removes), the subscriptions list, and the shopping-list download.
    The requester is an explicit, authenticated user id; permission classes,
    pagination and HTTP responses are not modelled. */
module Views {
  import opened Basics
  import opened Text
  import opened Toggles
  import opened Models
  import opened Serializers
  import opened Aggregation

  // ---------------------------------------------------------------------------
  // Favorite, shopping cart, subscribe

  /** `RecipesViewSet.add_remove_favorite` */
  function FavoriteAction(s: Store, user: int, recipe: int, m: Method): (o: Outcome<Store>)
    ensures recipe !in RecipeIds(s) ==> o == Outcome(s, NotFound)
    ensures o.store == s.(favorites := o.store.favorites)
    ensures recipe in RecipeIds(s) && m == Delete ==>
      && o.reply == Removed
      && Pair(user, recipe) !in o.store.favorites
      && forall q :: q != Pair(user, recipe) ==> (q in o.store.favorites <==> q in s.favorites)
    ensures recipe in RecipeIds(s) && m == Post && Pair(user, recipe) !in s.favorites ==>
      o == Outcome(s.(favorites := s.favorites + [Pair(user, recipe)]), Created)
    ensures recipe in RecipeIds(s) && m == Post && Pair(user, recipe) in s.favorites ==>
      o == Outcome(s, NoResponse)
  {
    if recipe !in RecipeIds(s) then Outcome(s, NotFound)
    else
      var (rel, reply) := Toggle(s.favorites, Pair(user, recipe), m, FallThrough);
      Outcome(s.(favorites := rel), reply)
  }

  /** `RecipesViewSet.add_remove_shopping_cart` */
  function CartAction(s: Store, user: int, recipe: int, m: Method): (o: Outcome<Store>)
    ensures recipe !in RecipeIds(s) ==> o == Outcome(s, NotFound)
    ensures o.store == s.(carts := o.store.carts)
    ensures recipe in RecipeIds(s) && m == Delete ==>
      && o.reply == Removed
      && Pair(user, recipe) !in o.store.carts
      && forall q :: q != Pair(user, recipe) ==> (q in o.store.carts <==> q in s.carts)
    ensures recipe in RecipeIds(s) && m == Post && Pair(user, recipe) !in s.carts ==>
      o == Outcome(s.(carts := s.carts + [Pair(user, recipe)]), Created)
    ensures recipe in RecipeIds(s) && m == Post && Pair(user, recipe) in s.carts ==>
      o == Outcome(s, NoResponse)
  {
    if recipe !in RecipeIds(s) then Outcome(s, NotFound)
    else
      var (rel, reply) := Toggle(s.carts, Pair(user, recipe), m, FallThrough);
      Outcome(s.(carts := rel), reply)
  }

  /** `CustomUsersViewSet.subscribe`. Nothing stops a user from subscribing to
      themselves. A fresh POST renders the author's entry after the row is
      written; that rendering reads `recipes_limit` from the same request, and
      a limit `get_recipes` refuses crashes the request with the row kept. */
  function SubscribeAction(s: Store, user: int, author: int, m: Method, limit: LimitParam): (o: Outcome<Store>)
    ensures author !in s.users ==> o == Outcome(s, NotFound)
    ensures o.store == s.(subscriptions := o.store.subscriptions)
    ensures author in s.users && m == Delete ==>
      && o.reply == Removed
      && Pair(user, author) !in o.store.subscriptions
      && forall q :: q != Pair(user, author) ==> (q in o.store.subscriptions <==> q in s.subscriptions)
    ensures author in s.users && m == Post && Pair(user, author) !in s.subscriptions ==>
      && o.store == s.(subscriptions := s.subscriptions + [Pair(user, author)])
      && (o.reply == Created <==> EmbeddedRecipes(s, author, limit).Some?)
      && (o.reply == Crashed <==> EmbeddedRecipes(s, author, limit).None?)
    ensures author in s.users && m == Post && Pair(user, author) in s.subscriptions ==>
      o == Outcome(s, Invalid)
  {
    if author !in s.users then Outcome(s, NotFound)
    else
      var (rel, reply) := Toggle(s.subscriptions, Pair(user, author), m, Reject);
      if reply == Created && EmbeddedRecipes(s, author, limit).None? then
        Outcome(s.(subscriptions := rel), Crashed)
      else
        Outcome(s.(subscriptions := rel), reply)
  }

  /** A store that differs from a valid one only in its three relations is
      valid when those relations keep their constraints. */
  lemma RelationsOnlyKeepValid(s: Store, s': Store)
    requires Valid(s)
    requires s' == s.(favorites := s'.favorites, carts := s'.carts, subscriptions := s'.subscriptions)
    requires Unique(s'.favorites) && Unique(s'.carts) && Unique(s'.subscriptions)
    requires forall p :: p in s'.favorites ==> p.target in RecipeIds(s)
    requires forall p :: p in s'.carts ==> p.target in RecipeIds(s)
    ensures Valid(s')
  {
    assert RecipeIds(s') == RecipeIds(s);
    assert TagIds(s') == TagIds(s) && IngredientIds(s') == IngredientIds(s);
    forall r | r in s'.recipes ensures RecipeOk(s', r) {
      assert RecipeOk(s, r);
    }
    forall row | row in s'.rows ensures RowOk(s', row) {
      assert RowOk(s, row);
    }
  }

  /** None of the three actions breaks the database invariants. */
  lemma FavoriteKeepsValid(s: Store, user: int, recipe: int, m: Method)
    requires Valid(s)
    ensures Valid(FavoriteAction(s, user, recipe, m).store)
  {
    var s' := FavoriteAction(s, user, recipe, m).store;
    if recipe in RecipeIds(s) {
      assert forall p :: p in s'.favorites ==> p in s.favorites || p == Pair(user, recipe);
      RelationsOnlyKeepValid(s, s');
    }
  }

  lemma CartKeepsValid(s: Store, user: int, recipe: int, m: Method)
    requires Valid(s)
    ensures Valid(CartAction(s, user, recipe, m).store)
  {
    var s' := CartAction(s, user, recipe, m).store;
    if recipe in RecipeIds(s) {
      assert forall p :: p in s'.carts ==> p in s.carts || p == Pair(user, recipe);
      RelationsOnlyKeepValid(s, s');
    }
  }

  lemma SubscribeKeepsValid(s: Store, user: int, author: int, m: Method, limit: LimitParam)
    requires Valid(s)
    ensures Valid(SubscribeAction(s, user, author, m, limit).store)
  {
    RelationsOnlyKeepValid(s, SubscribeAction(s, user, author, m, limit).store);
  }

  /** The read-side flags follow the actions: after POST the recipe reads as
      favorited (or in the cart), after DELETE it does not. */
  lemma FlagsFollowActions(s: Store, user: int, recipe: int, m: Method)
    requires recipe in RecipeIds(s)
    ensures IsFavorited(FavoriteAction(s, user, recipe, m).store, Member(user), recipe) <==> m == Post
    ensures IsInCart(CartAction(s, user, recipe, m).store, Member(user), recipe) <==> m == Post
  {
  }

  /** The `is_subscribed` flag follows the subscribe action, even when the
      reply to a POST is a crash. */
  lemma SubscribedFlagFollowsAction(s: Store, user: int, author: int, m: Method, limit: LimitParam)
    requires author in s.users
    ensures IsSubscribed(SubscribeAction(s, user, author, m, limit).store, Some(Member(user)), author) <==> m == Post
  {
  }

  /** A user can subscribe to themselves. */
  lemma SelfSubscriptionAccepted(s: Store, user: int)
    requires user in s.users && Pair(user, user) !in s.subscriptions
    ensures SubscribeAction(s, user, user, Post, NoLimit).reply == Created
    ensures IsSubscribed(SubscribeAction(s, user, user, Post, NoLimit).store, Some(Member(user)), user)
  {
  }

  /** A POST with a `recipes_limit` that `int()` refuses, or a negative one,
      replies with a crash yet leaves the new subscription in place. */
  lemma BadLimitKeepsSubscription(s: Store, user: int, author: int, limit: LimitParam)
    requires author in s.users && Pair(user, author) !in s.subscriptions
    requires limit.NotANumber? || (limit.Limit? && limit.n < 0)
    ensures SubscribeAction(s, user, author, Post, limit).reply == Crashed
    ensures IsSubscribed(SubscribeAction(s, user, author, Post, limit).store, Some(Member(user)), author)
  {
  }

  /** DELETE of a favorite that does not exist leaves the database as it was. */
  lemma DeleteAbsentFavoriteChangesNothing(s: Store, user: int, recipe: int)
    requires Pair(user, recipe) !in s.favorites
    ensures FavoriteAction(s, user, recipe, Delete).store == s
  {
    if recipe in RecipeIds(s) {
      DeleteAbsentIsNoOp(s.favorites, Pair(user, recipe), FallThrough);
    }
  }

  /** DELETE of a cart entry that does not exist leaves the database as it was. */
  lemma DeleteAbsentCartChangesNothing(s: Store, user: int, recipe: int)
    requires Pair(user, recipe) !in s.carts
    ensures CartAction(s, user, recipe, Delete).store == s
  {
    if recipe in RecipeIds(s) {
      DeleteAbsentIsNoOp(s.carts, Pair(user, recipe), FallThrough);
    }
  }

  /** DELETE of a subscription that does not exist leaves the database as it was. */
  lemma DeleteAbsentSubscriptionChangesNothing(s: Store, user: int, author: int, limit: LimitParam)
    requires Pair(user, author) !in s.subscriptions
    ensures SubscribeAction(s, user, author, Delete, limit).store == s
  {
    if author in s.users {
      DeleteAbsentIsNoOp(s.subscriptions, Pair(user, author), Reject);
    }
  }

  // ---------------------------------------------------------------------------
  // Subscriptions list

  function Targets(rel: Relation): (r: seq<int>)
    ensures |r| == |rel|
    ensures forall i :: 0 <= i < |rel| ==> r[i] == rel[i].target
  {
    seq(|rel|, i requires 0 <= i < |rel| => rel[i].target)
  }

  /** `User.objects.filter(subscriber__user=user)`: the authors `user` follows. */
  function SubscribedAuthors(s: Store, user: int): (authors: seq<int>)
    ensures forall a :: a in authors <==> a in s.users && Pair(user, a) in s.subscriptions
    ensures Unique(s.subscriptions) ==> forall i, j :: 0 <= i < j < |authors| ==> authors[i] != authors[j]
  {
    var mine := Filter(s.subscriptions, (p: Pair) => p.actor == user && p.target in s.users);
    FilterKeepsUnique(s.subscriptions, (p: Pair) => p.actor == user && p.target in s.users);
    var authors := Targets(mine);
    assert forall a :: a in s.users && Pair(user, a) in s.subscriptions ==> Pair(user, a) in mine;
    assert forall i :: 0 <= i < |mine| ==> mine[i] in mine;
    authors
  }

  /** The subscriptions list and the `is_subscribed` flag agree. */
  lemma SubscriptionsMatchFlag(s: Store, user: int, a: int)
    requires a in s.users
    ensures a in SubscribedAuthors(s, user) <==> IsSubscribed(s, Some(Member(user)), a)
  {
  }

  /** One entry of the subscriptions list. */
  datatype AuthorEntry = AuthorEntry(author: int, recipes: seq<Recipe>, recipesCount: nat)

  /** `CustomUsersViewSet.subscriptions`, unpaginated: one entry per followed
      author with the embedded recipes and the full count. `None` when the
      `recipes_limit` parameter makes an entry fail. */
  function Subscriptions(s: Store, user: int, limit: LimitParam): (r: Option<seq<AuthorEntry>>)
    ensures r.Some? ==> |r.value| == |SubscribedAuthors(s, user)|
    ensures r.Some? ==> forall i :: 0 <= i < |r.value| ==>
      && r.value[i].author == SubscribedAuthors(s, user)[i]
      && Some(r.value[i].recipes) == EmbeddedRecipes(s, r.value[i].author, limit)
      && r.value[i].recipesCount == |AuthorRecipes(s, r.value[i].author)|
    ensures r.None? ==> |SubscribedAuthors(s, user)| > 0 && (limit.NotANumber? || (limit.Limit? && limit.n < 0))
  {
    var authors := SubscribedAuthors(s, user);
    if |authors| > 0 && (limit.NotANumber? || (limit.Limit? && limit.n < 0)) then None
    else Some(seq(|authors|, i requires 0 <= i < |authors| =>
      AuthorEntry(authors[i], EmbeddedRecipes(s, authors[i], limit).value, RecipesCount(s, authors[i]))))
  }

  // ---------------------------------------------------------------------------
  // Shopping list

  /** The grouping key of the download: ingredient name and unit. */
  datatype LineKey = LineKey(name: string, unit: string)

  function IngredientOf(ings: seq<Ingredient>, id: int): (r: Option<Ingredient>)
    ensures r.Some? ==> r.value in ings && r.value.id == id
    ensures r.None? ==> forall i :: i in ings ==> i.id != id
  {
    if |ings| == 0 then None
    else if ings[0].id == id then Some(ings[0])
    else IngredientOf(ings[1..], id)
  }

  /** What one ingredient row adds under key `k` to `user`'s list: its amount
      when its recipe is in the cart and its ingredient has that name and unit,
      nothing otherwise. */
  function RowAmount(s: Store, user: int, row: IngredientRecipe, k: LineKey): int
  {
    match IngredientOf(s.ingredients, row.ingredient)
    case None => 0
    case Some(ing) =>
      if Pair(user, row.recipe) in s.carts && LineKey(ing.name, ing.unit) == k then row.amount else 0
  }

  /** The total amount under key `k` over the rows of `user`'s cart: the value
      `Sum('amount')` yields for that group. */
  function CartAmount(s: Store, user: int, rows: seq<IngredientRecipe>, k: LineKey): int
  {
    if |rows| == 0 then 0 else RowAmount(s, user, rows[0], k) + CartAmount(s, user, rows[1..], k)
  }

  /** The rows of recipes in `user`'s cart, joined with their ingredient and
      keyed by (name, unit). */
  function CartItems(s: Store, user: int, rows: seq<IngredientRecipe>): (items: seq<Item<LineKey>>)
    ensures |items| <= |rows|
    ensures (forall row :: row in rows ==> Pair(user, row.recipe) !in s.carts) ==> items == []
    // every item is a cart row's amount under its ingredient's (name, unit) ...
    ensures forall it :: it in items ==>
      exists row, ing :: row in rows && Pair(user, row.recipe) in s.carts && ing in s.ingredients
        && ing.id == row.ingredient && it == Item(LineKey(ing.name, ing.unit), row.amount)
    // ... and every cart row whose ingredient exists contributes one
    ensures forall row ::
      (row in rows && Pair(user, row.recipe) in s.carts && IngredientOf(s.ingredients, row.ingredient).Some?) ==>
      var ing := IngredientOf(s.ingredients, row.ingredient).value;
      Item(LineKey(ing.name, ing.unit), row.amount) in items
    // ... with its full multiplicity: the amounts under each key add up to the cart's total
    ensures forall k :: SumFor(items, k) == CartAmount(s, user, rows, k)
  {
    if |rows| == 0 then []
    else
      var rest := CartItems(s, user, rows[1..]);
      var row := rows[0];
      if Pair(user, row.recipe) !in s.carts then rest
      else match IngredientOf(s.ingredients, row.ingredient)
        case None => rest
        case Some(ing) =>
          var items := [Item(LineKey(ing.name, ing.unit), row.amount)] + rest;
          assert items[1..] == rest;
          items
  }

  /** One line of the download. */
  function FormatLine(g: Item<LineKey>): string
  {
    g.key.name + " - " + IntToString(g.amount) + " " + g.key.unit + "\n"
  }

  /** The query behind the download: the cart rows grouped by (name, unit)
      with summed amounts. Each distinct key of the user's cart rows gets
      exactly one group, and the group carries the sum of that key's amounts. */
  function ShoppingList(s: Store, user: int): (groups: seq<Item<LineKey>>)
    ensures var items := CartItems(s, user, s.rows);
      && DistinctKeys(groups)
      && |groups| == |KeysOf(items)|
      && (forall i :: 0 <= i < |groups| ==>
            groups[i].key in KeysOf(items) && groups[i].amount == CartAmount(s, user, s.rows, groups[i].key))
      && (forall k :: k in KeysOf(items) ==> HasGroup(groups, k))
  {
    var items := CartItems(s, user, s.rows);
    AggregateCount(items);
    AggregateAmounts(items);
    AggregateCoversKeys(items);
    var groups := Aggregate(items);
    assert forall i :: 0 <= i < |groups| ==> groups[i] in groups;
    groups
  }

  /** The lines written for a grouping, one per group, in group order. */
  function Render(groups: seq<Item<LineKey>>): (lines: seq<string>)
    ensures |lines| == |groups|
    ensures forall i :: 0 <= i < |groups| ==> lines[i] == FormatLine(groups[i])
  {
    if |groups| == 0 then [] else [FormatLine(groups[0])] + Render(groups[1..])
  }

  /** `line` is the line of some (name, unit) key of `user`'s cart, with the
      cart's total amount for that key. */
  ghost predicate LineOfCart(s: Store, user: int, line: string)
  {
    exists k :: k in KeysOf(CartItems(s, user, s.rows)) && line == FormatLine(Item(k, CartAmount(s, user, s.rows, k)))
  }

  /** `RecipesViewSet.download_shopping_cart`: the text file, one line per
      distinct (name, unit) in the user's cart, giving the cart's total amount
      for it. */
  function DownloadShoppingCart(s: Store, user: int): (lines: seq<string>)
    ensures |lines| == |KeysOf(CartItems(s, user, s.rows))|
    ensures forall k :: k in KeysOf(CartItems(s, user, s.rows)) ==>
      FormatLine(Item(k, CartAmount(s, user, s.rows, k))) in lines
    ensures forall i :: 0 <= i < |lines| ==> LineOfCart(s, user, lines[i])
  {
    var groups := ShoppingList(s, user);
    var lines := Render(groups);
    LinesCoverCart(s, user, groups, lines);
    lines
  }

  lemma LinesCoverCart(s: Store, user: int, groups: seq<Item<LineKey>>, lines: seq<string>)
    requires groups == ShoppingList(s, user) && lines == Render(groups)
    ensures forall k :: k in KeysOf(CartItems(s, user, s.rows)) ==>
      FormatLine(Item(k, CartAmount(s, user, s.rows, k))) in lines
    ensures forall i :: 0 <= i < |lines| ==> LineOfCart(s, user, lines[i])
  {
    var items := CartItems(s, user, s.rows);
    forall k | k in KeysOf(items)
      ensures FormatLine(Item(k, CartAmount(s, user, s.rows, k))) in lines
    {
      assert HasGroup(groups, k);
      var i :| 0 <= i < |groups| && groups[i].key == k;
      assert groups[i] == Item(k, CartAmount(s, user, s.rows, k));
      assert lines[i] == FormatLine(groups[i]);
    }
    forall i | 0 <= i < |lines| ensures LineOfCart(s, user, lines[i]) {
      assert groups[i] == Item(groups[i].key, CartAmount(s, user, s.rows, groups[i].key));
    }
  }

  /** An empty cart gives an empty list, not an error. */
  lemma EmptyCartEmptyList(s: Store, user: int)
    requires forall p :: p in s.carts ==> p.actor != user
    ensures DownloadShoppingCart(s, user) == []
  {
  }

  /** Two cart recipes with 5 g and 3 g of salt give the single line
      "Salt - 8 g", whatever else the database holds. */
  lemma SaltIsSummed(s: Store)
    requires s.ingredients == [Ingredient(1, "Salt", "g")]
    requires s.rows == [IngredientRecipe(1, 1, 5), IngredientRecipe(1, 2, 3)]
    requires s.carts == [Pair(7, 1), Pair(7, 2)]
    ensures DownloadShoppingCart(s, 7) == ["Salt - 8 g\n"]
  {
    SaltItems(s);
    SaltRendered(CartItems(s, 7, s.rows));
  }

  lemma SaltRendered(items: seq<Item<LineKey>>)
    requires items == [Item(LineKey("Salt", "g"), 5), Item(LineKey("Salt", "g"), 3)]
    ensures Render(Aggregate(items)) == ["Salt - 8 g\n"]
  {
    var salt := LineKey("Salt", "g");
    assert KeysOf(items) == {salt} by {
      assert forall x :: x in items ==> x.key == salt;
      assert items[0] in items;
    }
    assert items[1..] == [Item(salt, 3)] && items[1..][1..] == [];
    assert SumFor(items[1..][1..], salt) == 0;
    assert SumFor(items[1..], salt) == 3;
    assert SumFor(items, salt) == 8;
    var groups := Aggregate(items);
    AggregateCount(items);
    AggregateAmounts(items);
    AggregateCoversKeys(items);
    assert |groups| == 1;
    assert groups[0] == Item(salt, 8);
    assert IntToString(8) == "8";
    assert FormatLine(Item(salt, 8)) == "Salt - 8 g\n";
  }

  lemma SaltItems(s: Store)
    requires s.ingredients == [Ingredient(1, "Salt", "g")]
    requires s.rows == [IngredientRecipe(1, 1, 5), IngredientRecipe(1, 2, 3)]
    requires s.carts == [Pair(7, 1), Pair(7, 2)]
    ensures CartItems(s, 7, s.rows) == [Item(LineKey("Salt", "g"), 5), Item(LineKey("Salt", "g"), 3)]
  {
    assert IngredientOf(s.ingredients, 1) == Some(Ingredient(1, "Salt", "g"));
    assert CartItems(s, 7, s.rows[2..]) == [];
    assert CartItems(s, 7, s.rows[1..]) == [Item(LineKey("Salt", "g"), 3)];
  }
}
